=== FILE: README.md ===
# CommunicationMBTI core, modelled in Dafny

CommunicationMBTI is a browser application. The user holds a spoken conversation with an
AI partner in front of a webcam, and the application turns the conversation into a
communication-style type. This project models the logic at its centre:

- **Keypoint features** (`MediaPipe`, `media_pipe.dfy`). Holistic landmarks become pose,
  gesture, head-pose, gaze, hand-shape and body-movement records.
  - The service's rolling module state is an explicit `NormalizerState` record. It holds
    the last wrist positions, the last body centre and the ten-sample pitch history.
  - That record is threaded through the stateful extractors.
- **Scoring** (`ScoreEngine`, `FaceApi`). A timeline of frames is reduced to three detail
  scores (expressiveness, gesture activity, postural openness) and to a session summary.
  - The dominant facial expression is the channel that a stable descending sort puts
    first.
- **Conversation turn-taking**:
  - `Conversation`: the message log with its single pending-assistant-message slot.
  - `AudioRecorder`: the recorder's silence timer and active flag.
  - `AnalysisPage`: the page's `idle | ai_speaking | user_speaking | processing`
    orchestration with its synchronous mirror, the 30-entry live window, and the final
    combination of the four axes.
- **Small pure helpers**:
  - `AnalyzeSpeech`: the speech-analysis route's input check and the post-processing of
    the model's reply.
  - `ResultDisplay`: the `#rrggbb` parser and the colour blends.
  - `ScoreDisplay`: the hand-shape label.

Shared pieces are `Common` (`Option`, `Result`), `Numeric` (min/max/clamp, `Math.round`
as `Floor(x + 0.5)`, sums and means), `Strings` (JavaScript whitespace, `trim`, `join`)
and `AnalysisTypes` (the records).

Modelling choices:
- **Numbers.** All arithmetic is over `real`.
- **Square root.** `Math.sqrt` is a parameter `root` of type `Root`: any function with
  non-negative results.
- **Collaborators.** Everything outside the core is an input to the function that
  consults it:
  - the chat endpoint and the transcription endpoint;
  - speech playback;
  - microphone access;
  - the language-model call;
  - `JSON.parse`;
  - the clock.
- **Async handlers.** Each handler is one atomic transition. The page's handlers also
  return the ordered list of effects they perform (phase changes, recording stopped and
  started, speech appended, reply requested and played, pending message committed), so
  that the order of a turn can be stated.
- **Silence timer.** Timers carry a generation number. This is how the model states that
  a cleared timer never fires.
- **Landmark arrays.** Reading a landmark beyond the array throws in the source. The
  extractors therefore require the landmark arrays to be long enough for the indices they
  read:
  - 25 for the pose;
  - 455 for a face's head pose;
  - 387 for its gaze;
  - 21 for a hand's shape.
- **Iris landmarks.** The two iris landmarks (468 and 473) are present exactly when the
  face array is longer than 473. Without them the gaze direction is 0, as in the source.

Facts about the code that the model keeps:
- **Three detail scores.** `CommunicationScores` has exactly the three computed fields.
  The live panel's reads of `eyeContact` and `nodding` are outside this model.
- **Non-verbal axis.** `nonverbalExpression` is the rounded plain mean of the three detail
  scores (`src/app/analysis/page.tsx:176-178`).
- **Timeline entries.** The timeline entry carries head pose, gaze, hand shape and body
  movement as the page builds it (`src/app/analysis/page.tsx:67-76`). The declared
  `TimelineEntry` type has only the first three sub-records.
- **Forward lean.** The body-movement forward lean compares the nose's depth (`z`) with
  the hips' vertical centre (`y`), as written at
  `src/services/mediaPipeService.ts:339`.
- **Reset.** `reset` clears the log, the error and the start time; the pending slot keeps
  its content.
- **Normaliser state.** The normaliser state is never reset by the service.

## Model

| member | source | states |
|---|---|---|
| Strings.Blank | src/app/api/analyze-speech/route.ts:83 | the empty text is blank; a text starting with a visible character is not |
| Strings.Trim | src/app/api/analyze-speech/route.ts:140 | `trim()` returns a slice of the text whose surroundings are whitespace only and whose ends are not whitespace; it is empty exactly when the text is blank |
| Strings.TrimsCompose | src/app/api/analyze-speech/route.ts:140 | stripping leading then trailing whitespace leaves a slice with blank surroundings and visible ends, empty exactly when the text is blank |
| FaceApi.StableArgMaxFrom | src/services/faceApiService.ts:47-51 | scanning the channels in key order keeps a channel that is maximal, with every earlier channel strictly smaller |
| FaceApi.DominantExpression | src/services/faceApiService.ts:47-51 | the result's channel value is at least every channel's value, and every channel earlier in key order is strictly smaller (ties go to the earliest key) |
| FaceApi.StableMaxUnique | src/services/faceApiService.ts:47-51 | at most one channel is maximal with all earlier channels strictly smaller, so the stable sort's winner is determined |
| FaceApi.NeutralWinsTies | src/services/faceApiService.ts:47-51 | whenever neutral is maximal, ties included, the dominant expression is neutral |
| ScoreEngine.ExpressionSeries | src/services/scoreEngine.ts:12 | the expression entries, never more than the timeline holds |
| ScoreEngine.GestureFrequencies | src/services/scoreEngine.ts:48-53 | the gesture frequencies of the entries with gesture data; each lies in [0,1] for a valid timeline |
| ScoreEngine.PoseSeries | src/services/scoreEngine.ts:62 | the pose entries; each is a valid pose for a valid timeline |
| ScoreEngine.Variation | src/services/scoreEngine.ts:23-27 | the change between two frames is a sum of absolute differences, never negative |
| ScoreEngine.TotalVariation | src/services/scoreEngine.ts:15-29 | the summed variation from the second expression entry on is never negative |
| ScoreEngine.Diversity | src/services/scoreEngine.ts:16-35 | the collected dominant emotions are non-neutral ones, and none are collected from a series of at most one entry |
| ScoreEngine.Collect | src/services/scoreEngine.ts:18-35 | the collecting loop, for any emotion reading, gathers only non-neutral emotions and nothing from at most one entry |
| ScoreEngine.DiversityMembers | src/services/scoreEngine.ts:18-35 | an emotion is collected exactly when it is non-neutral and is the dominant emotion of some expression entry from the second one on |
| ScoreEngine.CollectMembers | src/services/scoreEngine.ts:18-35 | the same membership characterisation for any emotion reading |
| ScoreEngine.CollectWitness | src/services/scoreEngine.ts:31-35 | every collected emotion was read from some entry from the second one on |
| ScoreEngine.CollectHasDominant | src/services/scoreEngine.ts:31-35 | the non-neutral emotion of every entry from the second one on is collected |
| ScoreEngine.CollectOfConstant | src/services/scoreEngine.ts:31-35 | an unchanging series collects its one emotion, if non-neutral, once it has two entries |
| ScoreEngine.Expressiveness | src/services/scoreEngine.ts:9-42 | expressiveness is min(100, 200 × total variation ÷ number of expression entries + 10 × collected emotions) over the expression entries, 0 with at most one such entry, always in [0,100] |
| ScoreEngine.ExpressivenessOfSeries | src/services/scoreEngine.ts:13-41 | over a series of expression records the score is min(100, 200 × average variation + 10 per collected emotion), in [0,100], and 0 for a series of length at most one |
| ScoreEngine.MoreVariationNeverScoresLower | src/services/scoreEngine.ts:38-41 | of two series of one length that collect the same emotions, the one with more total variation never scores lower |
| ScoreEngine.DiversityBonusAtMostSixty | src/services/scoreEngine.ts:32-39 | the diversity bonus counts distinct non-neutral emotions, so it is at most 60 |
| ScoreEngine.ConstantSeriesHasNoVariation | src/services/scoreEngine.ts:18-29 | an unchanging face accumulates no variation |
| ScoreEngine.ConstantExpressionsScore | src/services/scoreEngine.ts:12-41 | an unchanging face scores exactly 10 when its dominant emotion is not neutral and there are two or more expression entries, and 0 otherwise |
| ScoreEngine.DiversitySizeOfConstant | src/services/scoreEngine.ts:31-39 | an unchanging face earns a diversity bonus of one emotion exactly when it has two entries and its dominant emotion is not neutral |
| ScoreEngine.ConstantSeriesScore | src/services/scoreEngine.ts:18-41 | the same at the level of the expression series |
| ScoreEngine.DiversityOfConstant | src/services/scoreEngine.ts:31-35 | an unchanging face collects exactly its own dominant emotion (if non-neutral) once it has two entries |
| ScoreEngine.SeriesOfConstant | src/services/scoreEngine.ts:12 | filtering a timeline whose only expression is x yields a series of x |
| ScoreEngine.GestureActivity | src/services/scoreEngine.ts:45-56 | gesture activity is min(100, 100 × the mean gesture frequency of the entries with gesture data), 0 without such entries, at most 100 and non-negative for a valid timeline |
| ScoreEngine.GestureActivityOfSeries | src/services/scoreEngine.ts:49-55 | the same over the series of frequencies |
| ScoreEngine.UniformGestureActivity | src/services/scoreEngine.ts:51-55 | when every gesture moves at the same frequency c in [0,1], the activity is exactly 100·c (100 times the mean) |
| ScoreEngine.UniformFrequencies | src/services/scoreEngine.ts:48 | the filtered frequencies are all c, and non-empty when some entry has gesture data |
| ScoreEngine.LeanBonus | src/services/scoreEngine.ts:74-77 | the lean bonus is 20 times the mean lean when that is positive and 0 otherwise |
| ScoreEngine.PosturalOpenness | src/services/scoreEngine.ts:59-80 | postural openness is min(100, 50 × mean openness + 30 × mean stability + the forward-lean bonus) over the entries with pose data, 0 without such entries, at most 100 and non-negative for a valid timeline |
| ScoreEngine.PosturalOpennessOfSeries | src/services/scoreEngine.ts:63-79 | the same over the pose series |
| ScoreEngine.CalculateAllScores | src/services/scoreEngine.ts:83-91 | each field is `Math.round` of its detail score (within half a point of expressiveness, gesture activity and postural openness); expressiveness in [0,100], the others at most 100 and non-negative for a valid timeline, each 0 when its data is missing |
| ScoreEngine.EntryWithoutDataKeepsScores | src/services/scoreEngine.ts:83-91 | appending an entry with no expression, gesture or pose data leaves all three rounded scores unchanged |
| ScoreEngine.EntriesWithoutDataAreIgnored | src/services/scoreEngine.ts:12-62 | appending an entry without expression, gesture or pose data leaves the corresponding score unchanged |
| ScoreEngine.SeriesOfAppend | src/services/scoreEngine.ts:12-62 | appending an entry extends each filtered series by that entry's sub-record, if any |
| ScoreEngine.EmptyTimelineScoresZero | src/services/scoreEngine.ts:83-91 | an empty timeline scores 0 on all three scores |
| ScoreEngine.SteadyPostureScores | src/services/scoreEngine.ts:59-91 | frames with openness 0.5, stability 0.8 and lean 0.2 and no other data score (0, 0, 53) |
| ScoreEngine.SteadyPostureSeries | src/services/scoreEngine.ts:62 | filtering such frames keeps every pose |
| ScoreEngine.NoGestureNoExpression | src/services/scoreEngine.ts:12-48 | frames without gesture and expression data give empty series |
| ScoreEngine.DominantSeries | src/services/scoreEngine.ts:110-113 | one dominant emotion per expression entry, in order |
| ScoreEngine.Count | src/services/scoreEngine.ts:110-113 | the count of an emotion is its multiplicity in the series, never more than the series length |
| ScoreEngine.CountsCoverSeries | src/services/scoreEngine.ts:100-113 | the seven counts add up to the number of expression entries |
| ScoreEngine.Percentage | src/services/scoreEngine.ts:115-118 | the share is `count / total × 100` rounded to the nearest integer: 100 × count lies within half a total of share × total; it is in [0,100] and 0 for a zero count (an empty series' total is taken as 1) |
| ScoreEngine.ScaledRounding | src/services/scoreEngine.ts:117 | a rounded percentage of c in d, scaled back by d, lies within half of d of 100 × c |
| ScoreEngine.Distribution | src/services/scoreEngine.ts:115-119 | the distribution has exactly the seven emotions as keys, each mapped to the rounded percentage share of its count among the expression entries; values in [0,100], all 0 for no expression entries |
| ScoreEngine.DominantOfCounts | src/services/scoreEngine.ts:121-124 | the dominant emotion has the maximal count, ties go to the earliest key, and it is neutral when nothing was counted |
| ScoreEngine.MeanOrZero | src/services/scoreEngine.ts:126-140 | the mean of a series: times the length it gives back the sum; 0 for an empty series, in [0,1] for values in [0,1] |
| ScoreEngine.GenerateSummary | src/services/scoreEngine.ts:94-148 | the summary: the distribution of the dominant emotions, the dominant one maximal with earliest-key ties, the mean gesture frequency and the mean posture stability (0 without data, in [0,1] for a valid timeline); neutral and all-zero for no expressions |
| MediaPipe.ExtractPose | src/services/mediaPipeService.ts:79-108 | no pose without pose landmarks; otherwise openness in [0,1], lean in [-1,1], stability in [0,1] |
| MediaPipe.TrackHand | src/services/mediaPipeService.ts:115-125 | a hand's movement is in [0,1] and 0 without a previous position; an absent hand forgets its position |
| MediaPipe.ExtractGesture | src/services/mediaPipeService.ts:111-146 | a gesture record is always returned, with movements in [0,1] and frequency their mean; only the hand positions change, and a hand's position is kept exactly when the hand is present |
| MediaPipe.DetectionGapGivesNoMovement | src/services/mediaPipeService.ts:115-125 | present, absent, present gives movement 0 on the third frame |
| MediaPipe.PushPitch | src/services/mediaPipeService.ts:171-172 | the newest sample is appended and the oldest dropped beyond ten |
| MediaPipe.HistoryKeepsLastTen | src/services/mediaPipeService.ts:171-172 | from empty, the pitch history holds exactly the last min(n, 10) samples in order |
| MediaPipe.FirstFourSamplesNeverNod | src/services/mediaPipeService.ts:174-181 | with fewer than five samples no nod is reported |
| MediaPipe.Nodding | src/services/mediaPipeService.ts:174-181 | fewer than five pitch samples never nod; a nod needs the newest and fifth-newest samples to differ |
| MediaPipe.ExtractHeadPose | src/services/mediaPipeService.ts:149-189 | no head pose and an untouched state without a face; otherwise angles in [-1,1], the pitch pushed to the history, and nodding iff the newest and fifth-newest pitch differ by more than 0.3 |
| MediaPipe.ExtractGaze | src/services/mediaPipeService.ts:192-248 | no gaze without a face; openness in [0,1], direction in [-1,1] and 0 without both irises; looking at the camera iff both directions are under 0.3 and the left eye is open over 0.3 |
| MediaPipe.FingerExtended | src/services/mediaPipeService.ts:250-263 | an extended finger has its tip above its base joint; a tip not above the middle joint is not extended |
| MediaPipe.FingerStates | src/services/mediaPipeService.ts:268-272 | the five fingers' extension in thumb-to-pinky order |
| MediaPipe.CountTrue | src/services/mediaPipeService.ts:274-279 | the number of extended fingers is at most the number of fingers |
| MediaPipe.CountTrueOfFive | src/services/mediaPipeService.ts:274-279 | the count of five flags is the sum of their indicator values |
| MediaPipe.AnalyzeHandShape | src/services/mediaPipeService.ts:266-295 | the finger count is the number of extended fingers (0..5); open iff at least four, fist iff at most one; peace, pointing and thumbs-up exactly as their finger patterns, pairwise exclusive |
| MediaPipe.ExtractHandShape | src/services/mediaPipeService.ts:298-310 | a hand shape exactly for each present hand, each the analysis of that same hand's landmarks |
| MediaPipe.ExtractBodyMovement | src/services/mediaPipeService.ts:313-366 | no movement and an untouched state without pose landmarks; otherwise all values in range, the body centre stored, and sway 0 on the first observed frame |
| MediaPipe.ExtractAll | src/hooks/useMediaPipe.ts:57-62 | the six extractors in the hook's order give valid records and keep the state valid |
| Conversation.Turns | src/hooks/useConversation.ts:93 | the request history is the log's roles and contents, one per message, in order |
| Conversation.StartConversation | src/hooks/useConversation.ts:22-62 | the log is emptied and the start time stamped; on failure the error is set and rethrown; in delayed mode the opening line is parked with an empty history, otherwise it is the only message |
| Conversation.SendMessage | src/hooks/useConversation.ts:66-124 | a blank message returns "" and changes nothing; otherwise one user message is appended and the whole log sent; a failure keeps it and sets the error; delayed mode parks the reply with its snapshot |
| Conversation.AddPendingMessage | src/hooks/useConversation.ts:127-133 | the log becomes snapshot plus the parked reply and the slot is cleared; with no slot nothing changes |
| Conversation.AddPendingIdempotent | src/hooks/useConversation.ts:127-133 | committing twice is the same as committing once |
| Conversation.DelayedSendCommitsSameLog | src/hooks/useConversation.ts:109-114 | a delayed reply, once committed, gives the same log as the immediate mode |
| Conversation.DelayedStartCommitsSameLog | src/hooks/useConversation.ts:49-53 | the same for the opening line |
| Conversation.Reset | src/hooks/useConversation.ts:136-140 | the log, error and start time are cleared; the pending slot is kept |
| Conversation.UserTranscript | src/hooks/useConversation.ts:143-148 | without user messages the transcript is empty; with one it is exactly that message |
| Conversation.TranscriptOfAppend | src/hooks/useConversation.ts:143-148 | the user transcript ignores assistant messages and gains one newline-separated line per user message |
| Conversation.Duration | src/hooks/useConversation.ts:151-154 | the duration is 0 before a start and otherwise the elapsed milliseconds over 1000 |
| Conversation.DurationAfterReset | src/hooks/useConversation.ts:136-154 | after a reset the duration is 0 |
| AudioRecorder.Initial | src/hooks/useAudioRecorder.ts:13-24 | a new recorder is inactive with no timer |
| AudioRecorder.StartRecording | src/hooks/useAudioRecorder.ts:110-148 | chunks and last transcript cleared; active and recording on success; on a microphone failure the error is set and the recorder left inactive; the timer is untouched |
| AudioRecorder.OnResult | src/hooks/useAudioRecorder.ts:46-76 | an unchanged transcript changes nothing; a changed one is remembered, cancels the pending timer, and arms a fresh one iff it is non-empty and the recorder is active |
| AudioRecorder.FireTimer | src/hooks/useAudioRecorder.ts:68-73 | only the armed timer can fire, and it invokes the silence callback iff the recorder is active |
| AudioRecorder.ChangedTranscriptCancelsPendingTimer | src/hooks/useAudioRecorder.ts:58-74 | after a changed transcript the previously pending timer can no longer invoke the callback |
| AudioRecorder.RestartsOnEnd | src/hooks/useAudioRecorder.ts:85-94 | recognition restarts on end only while active (and whenever active with recognition available) |
| AudioRecorder.DataAvailable | src/hooks/useAudioRecorder.ts:125-129 | non-empty chunks are appended; empty ones are dropped |
| AudioRecorder.StopRecording | src/hooks/useAudioRecorder.ts:151-193 | inactive and disarmed first; with no recorder or an inactive one the clip is null; otherwise the clip is the recorded chunks and they are cleared |
| AudioRecorder.NoSilenceAfterStop | src/hooks/useAudioRecorder.ts:152-158 | no timer can invoke the silence callback after a stop |
| AudioRecorder.StopAndTranscribe | src/hooks/useAudioRecorder.ts:215-221 | a null or empty clip gives "" without calling transcription; otherwise the transcription's outcome |
| AudioRecorder.KeptChunksArePositive | src/hooks/useAudioRecorder.ts:125-129 | kept chunks are all non-empty, so a clip is empty exactly when no chunk was kept |
| AudioRecorder.PositiveChunksSize | src/hooks/useAudioRecorder.ts:217 | a clip of non-empty chunks has size 0 exactly when it has no chunks |
| AnalyzeSpeech.SpeechRate | src/app/api/analyze-speech/route.ts:99 | the rate times the duration is the length when the duration is positive; otherwise the rate is 0 |
| AnalyzeSpeech.Normalize | src/app/api/analyze-speech/route.ts:168-180 | each axis clamped to [0,100], unchanged when already in range; missing reasons become three empty strings |
| AnalyzeSpeech.NormalizeIdempotent | src/app/api/analyze-speech/route.ts:168-180 | normalising a normalised result changes nothing |
| AnalyzeSpeech.NormalizeKeepsInRange | src/app/api/analyze-speech/route.ts:168-171 | a result passes normalisation unchanged exactly when every axis is in range |
| AnalyzeSpeech.Post | src/app/api/analyze-speech/route.ts:79-190 | unreadable body 500; missing or blank transcript 400 with nothing sent; no key 500; otherwise the prompt carries transcript, speech rate and duration, and the reply is post-processed; every success is in range |
| AnalyzeSpeech.Reply | src/app/api/analyze-speech/route.ts:130-182 | a failed call or an empty trimmed reply is a 500; any success has every axis in [0,100] |
| AnalyzeSpeech.UnparsableReplyScoresFifty | src/app/api/analyze-speech/route.ts:149-166 | a reply that does not parse yields 50 on every axis with the fixed reasons |
| AnalyzeSpeech.AnalyzeViaRoute | src/services/speechAnalysisService.ts:9-27 | the service only succeeds for a non-blank transcript, and then every axis is in [0,100] |
| AnalysisPage.InitialPage | src/app/analysis/page.tsx:22-33 | the page starts idle with phase and mirror agreeing |
| AnalysisPage.SetPhase | src/app/analysis/page.tsx:89-92 | the phase and its mirror are written together and nothing else changes |
| AnalysisPage.ListenAgain | src/app/analysis/page.tsx:121-123 | the user's turn: phase user_speaking, then recording restarted |
| AnalysisPage.Respond | src/app/analysis/page.tsx:109-123 | after a non-blank transcription: the text is appended to the transcript and sent, and the turn ends in user_speaking with recording restarted |
| AnalysisPage.RespondCommitsReply | src/app/analysis/page.tsx:112-123 | when the reply arrives and plays, the rest of the turn runs request, ai_speaking, play, commit, user_speaking, record and the pending reply is committed |
| AnalysisPage.PlayReply | src/app/analysis/page.tsx:113-123 | the pending reply is committed only when playback finished; either way the user's turn begins again |
| AnalysisPage.HandleSendMessage | src/app/analysis/page.tsx:95-129 | starts with processing; every path ends in user_speaking with the recorder stopped and restarted (active exactly when the microphone opens), and the timeline is untouched |
| AnalysisPage.SendEndsListening | src/app/analysis/page.tsx:96-128 | every send stops the recording first and ends with user_speaking then recording restarted, whichever step fails |
| AnalysisPage.TranscriptionDecidesTheTurn | src/app/analysis/page.tsx:100-110 | a failed or blank transcription leaves the transcript and the conversation untouched; a non-blank one is appended with a newline and sent |
| AnalysisPage.SuccessfulTurnEffects | src/app/analysis/page.tsx:95-123 | a turn whose transcription, reply and playback succeed runs processing, stop, append, request, ai_speaking, play, commit, user_speaking, record in that order |
| AnalysisPage.SuccessfulTurnLogsBothMessages | src/app/analysis/page.tsx:109-123 | after a successful turn the log ends with the user's message and then the reply |
| AnalysisPage.HandleSilenceDetected | src/app/analysis/page.tsx:44-49 | silence is a no-op unless the mirror reads user_speaking |
| AnalysisPage.OnSilenceTimer | src/app/analysis/page.tsx:44-54 | a timer that is not armed, or an inactive recorder, sends nothing; a send only happens from user_speaking |
| AnalysisPage.HandleStartConversation | src/app/analysis/page.tsx:135-159 | timeline and speech cleared, ai_speaking first; ends idle exactly when the opening or its playback fails, otherwise with the opening line logged and the user's turn begun |
| AnalysisPage.HandleEndConversation | src/app/analysis/page.tsx:162-167 | recording and playback stopped, then idle; the recorder is inactive with no timer |
| AnalysisPage.NoSendAfterEnd | src/app/analysis/page.tsx:162-167 | once ended, no silence timer can send a message |
| AnalysisPage.LiveWindow | src/app/analysis/page.tsx:81 | the live window is the last min(n, 30) entries |
| AnalysisPage.EntryOf | src/app/analysis/page.tsx:67-76 | the recorded entry keeps the timestamp and expressions, carries a hand-shape record exactly when one was published, is valid exactly when the published pose and gesture are, and has no detection at all while nothing was published |
| AnalysisPage.ExtractedEntryIsValid | src/app/analysis/page.tsx:67-76 | an entry built from the published extractions of a frame satisfies every range |
| AnalysisPage.UnpublishedFrameScoresNothing | src/app/analysis/page.tsx:60-83 | a frame recorded before the hooks published any detection adds no data, so the live scores over a short timeline stay those of the timeline before it |
| MediaPipe.Publish | src/hooks/useMediaPipe.ts:56-62 | the results callback publishes every extraction, so a hand-shape record is present from then on |
| AnalysisPage.HandleFrame | src/app/analysis/page.tsx:60-86 | the entry is appended and the live scores are those of the window; a valid timeline stays valid with scores in [0,100] |
| AnalysisPage.OldEntriesLeaveTheWindow | src/app/analysis/page.tsx:80-82 | beyond 30 entries the oldest ones no longer affect the live scores |
| AnalysisPage.NonverbalExpression | src/app/analysis/page.tsx:174-177 | the non-verbal axis is Math.round of the mean of the three detail scores, and so lies between the least and greatest of them |
| AnalysisPage.HandleAnalyze | src/app/analysis/page.tsx:170-204 | the non-verbal axis is Math.round of the mean of the three detail scores over the whole timeline, between the least and greatest of them; the speech axes are the analysis' values only for a non-blank transcript and a successful analysis, and 50 otherwise |
| AnalysisPage.AxesInRange | src/app/analysis/page.tsx:174-204 | with the route behind the service, every axis of a valid timeline is in [0,100] |
| AnalysisPage.Apply | src/app/analysis/page.tsx:89-92 | every event keeps the phase and the mirror equal and the timer bookkeeping consistent |
| AnalysisPage.RunKeepsMirror | src/app/analysis/page.tsx:89-92 | the same over any run of events |
| AnalysisPage.FramesKeepTimelineValid | src/app/analysis/page.tsx:78 | a run of valid frames appends exactly those entries and keeps the timeline valid |
| AnalysisPage.FrameAppends | src/app/analysis/page.tsx:78 | a frame appends its entry |
| ResultDisplay.HexValue | src/components/ResultDisplay.tsx:25-27 | a hex digit's value is below 16 |
| ResultDisplay.Captured | src/components/ResultDisplay.tsx:22 | a match captures six hex digits |
| ResultDisplay.PairValue | src/components/ResultDisplay.tsx:25-27 | a digit pair's base-16 value is in 0..255 |
| ResultDisplay.HexToRgb | src/components/ResultDisplay.tsx:21-30 | an optional '#' and six hex digits in either case parse pairwise in base 16; anything else is black |
| ResultDisplay.FormatThenParse | src/components/ResultDisplay.tsx:21-30 | formatting a colour as six digits and parsing it, with or without '#', gives the colour back |
| ResultDisplay.ParseThenFormat | src/components/ResultDisplay.tsx:21-30 | parsing six digits and formatting again gives their lower-case spelling |
| ResultDisplay.HashIsOptional | src/components/ResultDisplay.tsx:22 | '#' + s parses like s for six hex digits |
| ResultDisplay.CaseInsensitive | src/components/ResultDisplay.tsx:22 | every string parses like its lower-case form |
| ResultDisplay.LightChannel | src/components/ResultDisplay.tsx:36-38 | a lightened channel lies between the original and 255; intensity 1 keeps it, 0 gives 255 |
| ResultDisplay.DarkerChannel | src/components/ResultDisplay.tsx:45-47 | a darkened channel lies between 0 and the original; factor 0 keeps it |
| ResultDisplay.LightColor | src/components/ResultDisplay.tsx:33-40 | every channel of the light colour is in 0..255 and not below the parsed one; intensity 1 is the colour, 0 is white |
| ResultDisplay.DarkerColor | src/components/ResultDisplay.tsx:43-49 | every channel of the darker colour is in 0..255 and not above the parsed one; factor 0 is the colour |
| ResultDisplay.UnparsableColour | src/components/ResultDisplay.tsx:29-47 | an unparsable colour darkens to black and lightens to a grey |
| ScoreDisplay.CountLabel | src/components/ScoreDisplay.tsx:53 | the count label is the decimal digits of the finger count, spelling exactly that number, followed by '本' |
| Strings.NatToString | src/components/ScoreDisplay.tsx:53 | `${n}` renders digits without a leading zero whose decimal value is n |
| ScoreDisplay.HandShapeLabel | src/components/ScoreDisplay.tsx:46-54 | '-' for no hand; otherwise the first of thumbs-up, peace, pointing, fist, open that is set decides the label, and the finger count when none is |
| ScoreDisplay.CountLabelOnlyForTwoOrThree | src/components/ScoreDisplay.tsx:46-54 | for a classified hand, the finger-count label appears exactly for two or three fingers that are neither peace nor pointing |

## Left out

- Rendering: the JSX and React plumbing of the components and pages (including the result page, the conversation log and `src/App.tsx`) are left out.
- Browser devices: MediaRecorder, getUserMedia, the Web Speech API objects, audio playback and webcam capture are left out. Their outcomes (microphone available, playback succeeded, transcription result, recognition results, chunk sizes) are inputs.
- Model loading: the MediaPipe and face-api initialisation and detection are left out. The detections are inputs.
- Network routes: the chat, TTS, transcription and personalised-comment routes, and the fetch calls in the hooks, are abstract success or failure inputs.
- Type classification: `determineType` and the type tables are not part of this model, and neither is the navigation to the result page.
- Floating point: all arithmetic is exact over `real`. `Math.sqrt` is an uninterpreted non-negative function, and NaN, infinities and rounding error are not modelled.
- AnalyzeSpeech.Post: a reply whose JSON lacks numeric axes (`Math.min` of `undefined` gives NaN) is not modelled. A parsed reply always carries three numbers.
- AnalyzeSpeech.SpeechRate: `transcript.length` counts UTF-16 code units, while the model counts characters (code points).
- Interleaving: handlers are atomic, so an end of conversation during an in-flight send (which the source does not abort) is not modelled.
- Recorder re-initialisation: `hasSpeechStarted` and the recognition effect's re-run when it changes are left out as React plumbing. That re-run aborts recognition and clears the silence timer.
- Stale closures: `sendMessage`'s captured `messages` is left out; the model reads the current log.
- Loading flags: `isLoading`, `isProcessing`, the error aggregation of the page, and the speech-recognition `onerror` logging are left out.
- `src/hooks/useSpeechRecognition.ts` and `src/utils/dataExport.ts` are not part of this model.
- Colour formatting: `getLightColor` and `getDarkerColor` return `rgb(r, g, b)` strings; the model returns the three rounded channels and leaves the string formatting out.
- AnalysisPage.HandleFrame: the frame's detections are passed in as a finished entry. `ExtractedEntryIsValid` connects it to the extractors.
- AnalysisPage.EntryOf: `handleFrame` reads the hooks' values from the render that created the callback, so each entry holds the detections published before the frame, not the frame's own, and a session's first entry is all-null (`src/hooks/useMediaPipe.ts:40-45`). The model takes the published record as an input and does not model render timing.
- AnalysisPage.Apply: the manual Send event is accepted in every phase, while the page shows its button only in `user_speaking` (`src/app/analysis/page.tsx:311-318`). This is an over-approximation.
- AnalysisPage.PlayReply: speaking is an outcome input that may fail for any text, while `speak` resolves at once for blank text (`src/hooks/useTextToSpeech.ts:11-13`). This is an over-approximation.
- MediaPipe.ExtractPose, MediaPipe.ExtractHeadPose, MediaPipe.ExtractGaze, MediaPipe.ExtractHandShape and MediaPipe.ExtractBodyMovement require landmark arrays long enough for the indices they read (25, 455, 387, 21 and 25). A shorter array makes the source throw a TypeError, and that error path is not modelled.

=== FILE: analysis_page.dfy ===
/** The analysis page's orchestration: the conversation phase and its synchronous mirror,
    the send/silence/start/end handlers, the per-frame timeline with its 30-entry live
    window, and the final combination of the four axes.
    Each async handler is one atomic transition; what it does to the outside world is
    logged as a sequence of effects so that their order can be stated. */
module AnalysisPage {
  import opened Common
  import opened Numeric
  import opened Strings
  import opened AnalysisTypes
  import opened MediaPipe
  import opened ScoreEngine
  import Conversation
  import AudioRecorder
  import AnalyzeSpeech

  datatype Phase = Idle | AiSpeaking | UserSpeaking | Processing

  /** The page state: the reactive phase and its mirror (the ref read by the silence
      callback), the timeline, the accumulated user speech, the live scores, and the
      state of the conversation and recorder hooks. */
  datatype Page = Page(
    phase: Phase,
    mirror: Phase,
    isAnalyzing: bool,
    timeline: seq<TimelineEntry>,
    userSpeech: string,
    liveScores: CommunicationScores,
    conversation: Conversation.State,
    recorder: AudioRecorder.Recorder)
  {
    /** The phase and its mirror agree. */
    predicate Synced()
    {
      phase == mirror
    }
  }

  /** The outcomes of the collaborators one handler consults: the transcription endpoint,
      the chat endpoint, whether playback succeeds, whether the microphone can be opened,
      and the clock. */
  datatype Services = Services(
    transcribe: seq<nat> -> Result<string, string>,
    chat: Conversation.ChatRequest -> Conversation.ChatReply,
    speak: string -> bool,
    micOk: bool,
    now: real)

  datatype Effect =
    | PhaseSet(phase: Phase)
    | RecordingStopped
    | SpeechAppended(text: string)
    | ReplyRequested(text: string)
    | OpeningRequested
    | ReplyPlayed(text: string)
    | PendingCommitted
    | RecordingStarted
    | PlaybackStopped

  datatype Outcome = Outcome(page: Page, effects: seq<Effect>)

  function InitialPage(recognitionAvailable: bool): (p: Page)
    ensures p.Synced() && p.phase == Idle && p.recorder.Valid()
  {
    Page(Idle, Idle, false, [], "", CommunicationScores(0, 0, 0),
         Conversation.Initial, AudioRecorder.Initial(recognitionAvailable))
  }

  /** `updateConversationState`: writes the phase and its mirror together. */
  function SetPhase(p: Page, phase: Phase): (r: Page)
    ensures r.phase == phase && r.Synced()
    ensures r.isAnalyzing == p.isAnalyzing && r.timeline == p.timeline && r.userSpeech == p.userSpeech
    ensures r.liveScores == p.liveScores && r.conversation == p.conversation && r.recorder == p.recorder
  {
    p.(phase := phase, mirror := phase)
  }

  /** The user's turn begins: phase `user_speaking`, then recording restarts. */
  function ListenAgain(p: Page, sv: Services): (r: Outcome)
    ensures r.page.phase == UserSpeaking && r.page.Synced()
    ensures r.effects == [PhaseSet(UserSpeaking), RecordingStarted]
    ensures r.page.recorder.active <==> sv.micOk
    ensures p.recorder.Valid() ==> r.page.recorder.Valid()
  {
    var q := SetPhase(p, UserSpeaking);
    Outcome(q.(recorder := AudioRecorder.StartRecording(q.recorder, sv.micOk)),
            [PhaseSet(UserSpeaking), RecordingStarted])
  }

  /** Whether a successful turn's transcription, reply and playback all went through. */
  predicate TurnSucceeds(p: Page, sv: Services)
  {
    var tr := AudioRecorder.StopAndTranscribe(p.recorder, sv.transcribe);
    && tr.result.Ok? && !Blank(tr.result.value)
    && sv.chat(Conversation.SendRequest(p.conversation, tr.result.value, sv.now)).Replied?
    && sv.speak(sv.chat(Conversation.SendRequest(p.conversation, tr.result.value, sv.now)).text)
  }

  /** The full order of a successful user turn. */
  function TurnEffects(text: string, reply: string): seq<Effect>
  {
    [PhaseSet(Processing), RecordingStopped, SpeechAppended(text), ReplyRequested(text),
     PhaseSet(AiSpeaking), ReplyPlayed(reply), PendingCommitted,
     PhaseSet(UserSpeaking), RecordingStarted]
  }

  /** The part of `handleSendMessage` after a non-blank transcription: record the
      speech, ask for the reply, play it, commit it, and hand the turn back. */
  function Respond(p: Page, text: string, sv: Services): (r: Outcome)
    requires !Blank(text)
    ensures r.page.phase == UserSpeaking && r.page.Synced()
    ensures |r.effects| >= 4 && r.effects[0] == SpeechAppended(text) && r.effects[1] == ReplyRequested(text)
    ensures r.effects[|r.effects| - 2] == PhaseSet(UserSpeaking) && r.effects[|r.effects| - 1] == RecordingStarted
    ensures r.page.recorder.active <==> sv.micOk
    ensures p.recorder.Valid() ==> r.page.recorder.Valid()
    ensures r.page.timeline == p.timeline && r.page.isAnalyzing == p.isAnalyzing
    ensures r.page.userSpeech == p.userSpeech + text + "\n"
  {
    var heard := p.(userSpeech := p.userSpeech + text + "\n");
    var asked := [SpeechAppended(text), ReplyRequested(text)];
    var sent := Conversation.SendMessage(heard.conversation, text, true, sv.now, sv.chat);
    var withReply := heard.(conversation := sent.state);
    match sent.result
    case Err(_) =>
      var l := ListenAgain(withReply, sv);
      Outcome(l.page, asked + l.effects)
    case Ok(reply) =>
      var rest := PlayReply(withReply, reply, sv);
      var effects := asked + rest.effects;
      Outcome(rest.page, effects)
  }

  /** When the reply arrives and its playback finishes, the rest of the turn runs in the
      documented order and the pending reply is committed. */
  lemma RespondCommitsReply(p: Page, text: string, sv: Services)
    requires !Blank(text)
    requires sv.chat(Conversation.SendRequest(p.conversation, text, sv.now)).Replied?
    requires sv.speak(sv.chat(Conversation.SendRequest(p.conversation, text, sv.now)).text)
    ensures var reply := sv.chat(Conversation.SendRequest(p.conversation, text, sv.now));
      var r := Respond(p, text, sv);
      && r.effects == TurnEffects(text, reply.text)[2..]
      && r.page.conversation ==
           Conversation.AddPendingMessage(Conversation.SendMessage(p.conversation, text, true, sv.now, sv.chat).state)
  {
  }

  /** Playing the assistant's reply: the pending assistant message is committed only
      when playback finished, and either way the user's turn begins again. */
  function PlayReply(p: Page, reply: string, sv: Services): (r: Outcome)
    ensures r.page.phase == UserSpeaking && r.page.Synced()
    ensures |r.effects| >= 4 && r.effects[0] == PhaseSet(AiSpeaking) && r.effects[1] == ReplyPlayed(reply)
    ensures r.effects[|r.effects| - 2] == PhaseSet(UserSpeaking) && r.effects[|r.effects| - 1] == RecordingStarted
    ensures r.page.recorder.active <==> sv.micOk
    ensures p.recorder.Valid() ==> r.page.recorder.Valid()
    ensures r.page.timeline == p.timeline && r.page.isAnalyzing == p.isAnalyzing
    ensures r.page.userSpeech == p.userSpeech
    ensures sv.speak(reply) ==>
      && r.effects == [PhaseSet(AiSpeaking), ReplyPlayed(reply), PendingCommitted,
                       PhaseSet(UserSpeaking), RecordingStarted]
      && r.page.conversation == Conversation.AddPendingMessage(p.conversation)
    ensures !sv.speak(reply) ==> r.page.conversation == p.conversation
  {
    var speaking := SetPhase(p, AiSpeaking);
    var played := [PhaseSet(AiSpeaking), ReplyPlayed(reply)];
    if !sv.speak(reply) then
      var l := ListenAgain(speaking, sv);
      Outcome(l.page, played + l.effects)
    else
      var committed := speaking.(conversation := Conversation.AddPendingMessage(speaking.conversation));
      var l := ListenAgain(committed, sv);
      Outcome(l.page, played + [PendingCommitted] + l.effects)
  }

  /** `handleSendMessage`: every path, failures included, ends with the user's turn
      begun again; a blank or failed transcription leaves the transcript untouched. */
  function HandleSendMessage(p: Page, sv: Services): (r: Outcome)
    ensures r.page.phase == UserSpeaking && r.page.Synced()
    ensures |r.effects| >= 4
    ensures r.effects[0] == PhaseSet(Processing)
    ensures r.page.recorder.active <==> sv.micOk
    ensures r.page.recorder.Valid()
    ensures r.page.timeline == p.timeline && r.page.isAnalyzing == p.isAnalyzing
  {
    var tr := AudioRecorder.StopAndTranscribe(p.recorder, sv.transcribe);
    var stopped := SetPhase(p, Processing).(recorder := tr.recorder);
    var opening := [PhaseSet(Processing), RecordingStopped];
    if tr.result.Err? || Blank(tr.result.value) then
      var l := ListenAgain(stopped, sv);
      Outcome(l.page, opening + l.effects)
    else
      var rest := Respond(stopped, tr.result.value, sv);
      var effects := opening + rest.effects;
      Outcome(rest.page, effects)
  }

  /** Every send, whatever fails along the way, opens by stopping the recording and closes
      by handing the turn back to the user with the recording restarted. */
  lemma SendEndsListening(p: Page, sv: Services)
    ensures var r := HandleSendMessage(p, sv);
      && r.effects[1] == RecordingStopped
      && r.effects[|r.effects| - 2] == PhaseSet(UserSpeaking) && r.effects[|r.effects| - 1] == RecordingStarted
  {
  }

  /** A failed or blank transcription sends nothing and leaves the transcript and the
      conversation as they were; a non-blank one is appended to the transcript and sent. */
  lemma TranscriptionDecidesTheTurn(p: Page, sv: Services)
    ensures var tr := AudioRecorder.StopAndTranscribe(p.recorder, sv.transcribe);
      var r := HandleSendMessage(p, sv);
      && ((tr.result.Err? || Blank(tr.result.value)) ==>
            && r.page.userSpeech == p.userSpeech && r.page.conversation == p.conversation
            && r.effects == [PhaseSet(Processing), RecordingStopped, PhaseSet(UserSpeaking), RecordingStarted])
      && ((tr.result.Ok? && !Blank(tr.result.value)) ==>
            && r.page.userSpeech == p.userSpeech + tr.result.value + "\n"
            && r.effects[2] == SpeechAppended(tr.result.value) && r.effects[3] == ReplyRequested(tr.result.value))
  {
  }

  /** A turn whose transcription, reply and playback all succeed produces the full
      effect order and commits the assistant's pending reply. */
  lemma SuccessfulTurnEffects(p: Page, sv: Services)
    requires TurnSucceeds(p, sv)
    ensures var text := AudioRecorder.StopAndTranscribe(p.recorder, sv.transcribe).result.value;
      var reply := sv.chat(Conversation.SendRequest(p.conversation, text, sv.now));
      var r := HandleSendMessage(p, sv);
      && r.effects == TurnEffects(text, reply.text)
      && r.page.conversation ==
           Conversation.AddPendingMessage(Conversation.SendMessage(p.conversation, text, true, sv.now, sv.chat).state)
  {
    var text := AudioRecorder.StopAndTranscribe(p.recorder, sv.transcribe).result.value;
    var rest := Respond(SetPhase(p, Processing).(recorder := AudioRecorder.StopAndTranscribe(p.recorder, sv.transcribe).recorder), text, sv);
    RespondCommitsReply(SetPhase(p, Processing).(recorder := AudioRecorder.StopAndTranscribe(p.recorder, sv.transcribe).recorder), text, sv);
    assert HandleSendMessage(p, sv).effects == [PhaseSet(Processing), RecordingStopped] + rest.effects;
  }

  /** After a successful turn the log ends with the user's message and the reply, in that
      order, exactly as if the reply had been added at once. */
  lemma SuccessfulTurnLogsBothMessages(p: Page, sv: Services)
    requires TurnSucceeds(p, sv)
    ensures var text := AudioRecorder.StopAndTranscribe(p.recorder, sv.transcribe).result.value;
      var reply := sv.chat(Conversation.SendRequest(p.conversation, text, sv.now));
      HandleSendMessage(p, sv).page.conversation.messages ==
        p.conversation.messages + [Conversation.Message(Conversation.User, text, sv.now),
                                   Conversation.Message(Conversation.Assistant, reply.text, reply.at)]
  {
    var text := AudioRecorder.StopAndTranscribe(p.recorder, sv.transcribe).result.value;
    SuccessfulTurnEffects(p, sv);
    Conversation.DelayedSendCommitsSameLog(p.conversation, text, sv.now, sv.chat);
  }

  /** `handleSilenceDetected`: sends only while the mirror reads `user_speaking`. */
  function HandleSilenceDetected(p: Page, sv: Services): (r: Outcome)
    ensures p.mirror != UserSpeaking ==> r == Outcome(p, [])
    ensures p.mirror == UserSpeaking ==> r.effects != [] && r.page.phase == UserSpeaking
  {
    if p.mirror == UserSpeaking then HandleSendMessage(p, sv) else Outcome(p, [])
  }

  /** The recorder's silence timer of generation `g` elapses; its callback is the page's
      silence handler. */
  function OnSilenceTimer(p: Page, g: nat, sv: Services): (r: Outcome)
    ensures !(p.recorder.timer == AudioRecorder.Armed(g) && p.recorder.active) ==> r.effects == []
    ensures r.effects != [] ==> p.mirror == UserSpeaking && r.effects[0] == PhaseSet(Processing)
  {
    var (recorder, invoke) := AudioRecorder.FireTimer(p.recorder, g);
    var q := p.(recorder := recorder);
    if invoke then HandleSilenceDetected(q, sv) else Outcome(q, [])
  }

  /** `handleStartConversation`: clears the timeline and speech, speaks the opening line,
      then hands the turn to the user; any failure returns to idle. */
  function HandleStartConversation(p: Page, sv: Services): (r: Outcome)
    ensures r.page.Synced()
    ensures r.page.timeline == [] && r.page.userSpeech == ""
    ensures |r.effects| >= 2 && r.effects[..2] == [PhaseSet(AiSpeaking), OpeningRequested]
    ensures r.page.phase == Idle || r.page.phase == UserSpeaking
    ensures r.page.phase == Idle <==> !r.page.isAnalyzing
    ensures var opening := sv.chat(Conversation.ChatRequest([], true));
      && (opening.Failed? || !sv.speak(opening.text) <==> r.page.phase == Idle)
      && (r.page.phase == Idle ==> r.page.recorder == p.recorder && r.effects[|r.effects| - 1] == PhaseSet(Idle))
      && (r.page.phase == UserSpeaking ==>
            && r.effects == [PhaseSet(AiSpeaking), OpeningRequested, ReplyPlayed(opening.text),
                             PendingCommitted, PhaseSet(UserSpeaking), RecordingStarted]
            && r.page.conversation.messages == [Conversation.Message(Conversation.Assistant, opening.text, opening.at)]
            && (r.page.recorder.active <==> sv.micOk))
    ensures p.recorder.Valid() ==> r.page.recorder.Valid()
  {
    var cleared := SetPhase(p.(timeline := [], userSpeech := "", isAnalyzing := true), AiSpeaking);
    var asked := [PhaseSet(AiSpeaking), OpeningRequested];
    var started := Conversation.StartConversation(cleared.conversation, true, sv.now, sv.chat);
    var withOpening := cleared.(conversation := started.state);
    match started.result
    case Err(_) =>
      Outcome(SetPhase(withOpening, Idle).(isAnalyzing := false), asked + [PhaseSet(Idle)])
    case Ok(text) =>
      var played := asked + [ReplyPlayed(text)];
      if !sv.speak(text) then
        Outcome(SetPhase(withOpening, Idle).(isAnalyzing := false), played + [PhaseSet(Idle)])
      else
        var committed := withOpening.(conversation := Conversation.AddPendingMessage(withOpening.conversation));
        var l := ListenAgain(committed, sv);
        Outcome(l.page, played + [PendingCommitted] + l.effects)
  }

  /** `handleEndConversation`: stops recording and playback, then goes idle. */
  function HandleEndConversation(p: Page): (r: Outcome)
    ensures r.page.phase == Idle && r.page.Synced() && !r.page.isAnalyzing
    ensures !r.page.recorder.active && r.page.recorder.timer.NoTimer?
    ensures r.effects == [RecordingStopped, PlaybackStopped, PhaseSet(Idle)]
    ensures r.page.conversation == p.conversation && r.page.timeline == p.timeline
  {
    var stopped := p.(recorder := AudioRecorder.StopRecording(p.recorder).0);
    Outcome(SetPhase(stopped.(isAnalyzing := false), Idle), [RecordingStopped, PlaybackStopped, PhaseSet(Idle)])
  }

  /** After the conversation ends no silence timer can send a message. */
  lemma NoSendAfterEnd(p: Page, g: nat, sv: Services)
    ensures OnSilenceTimer(HandleEndConversation(p).page, g, sv).effects == []
  {
  }

  // ---- frames and live scores ------------------------------------------------

  const LiveWindowSize: nat := 30

  /** `slice(-30)`: the most recent 30 entries, or all of them if there are fewer. */
  function LiveWindow(t: seq<TimelineEntry>): (w: seq<TimelineEntry>)
    ensures |w| <= LiveWindowSize
    ensures |w| == if |t| < LiveWindowSize then |t| else LiveWindowSize
    ensures w == t[|t| - |w|..]
  {
    if |t| <= LiveWindowSize then t else t[|t| - LiveWindowSize..]
  }

  /** The timeline entry `handleFrame` records: the timestamp, the face hook's expressions
      and the detections the MediaPipe hook has published so far. */
  function EntryOf(timestamp: real, expressions: Option<Expressions>, d: Published): (e: TimelineEntry)
    ensures e.handShape.Some? <==> d.handShape.Some?
    ensures e.Valid() <==>
      (d.pose.Some? ==> d.pose.value.Valid()) && (d.gesture.Some? ==> d.gesture.value.Valid())
    ensures e.timestamp == timestamp && e.expressions == expressions
    ensures d == NothingPublished ==>
      && e.pose.None? && e.gesture.None? && e.headPose.None?
      && e.gaze.None? && e.handShape.None? && e.bodyMovement.None?
  {
    TimelineEntry(timestamp, expressions, d.pose, d.gesture, d.headPose, d.gaze, d.handShape, d.bodyMovement)
  }

  /** An entry built from published extractions satisfies every range the extractors
      promise. */
  lemma ExtractedEntryIsValid(timestamp: real, expressions: Option<Expressions>, f: Results, s: NormalizerState, root: Root)
    requires Readable(f)
    ensures EntryOf(timestamp, expressions, Publish(ExtractAll(f, s, root).0)).Valid()
  {
  }

  /** Before either hook has published anything the recorded entry carries no data, so it
      leaves the live scores of the window it joins unchanged. */
  lemma UnpublishedFrameScoresNothing(p: Page, timestamp: real)
    requires |p.timeline| < LiveWindowSize
    ensures var e := EntryOf(timestamp, None, NothingPublished);
      HandleFrame(p, e).liveScores == CalculateAllScores(p.timeline)
  {
    var e := EntryOf(timestamp, None, NothingPublished);
    EntryWithoutDataKeepsScores(p.timeline, e);
  }

  /** `handleFrame`: appends the entry and recomputes the live scores over the window. */
  function HandleFrame(p: Page, entry: TimelineEntry): (r: Page)
    ensures r.timeline == p.timeline + [entry]
    ensures r.liveScores == CalculateAllScores(LiveWindow(r.timeline))
    ensures r.(timeline := p.timeline, liveScores := p.liveScores) == p
    ensures TimelineValid(p.timeline) && entry.Valid() ==>
      && TimelineValid(r.timeline)
      && 0 <= r.liveScores.gestureActivity <= 100 && 0 <= r.liveScores.posturalOpenness <= 100
  {
    var t := p.timeline + [entry];
    assert TimelineValid(p.timeline) && entry.Valid() ==> TimelineValid(LiveWindow(t)) by {
      if TimelineValid(p.timeline) && entry.Valid() {
        forall i | 0 <= i < |LiveWindow(t)|
          ensures LiveWindow(t)[i].Valid()
        {
          assert LiveWindow(t)[i] == t[|t| - |LiveWindow(t)| + i];
        }
      }
    }
    p.(timeline := t, liveScores := CalculateAllScores(LiveWindow(t)))
  }

  /** Once the timeline holds more than 30 entries the oldest ones no longer influence the
      live scores. */
  lemma OldEntriesLeaveTheWindow(p: Page, oldest: TimelineEntry, entry: TimelineEntry)
    requires |p.timeline| >= LiveWindowSize
    ensures HandleFrame(p.(timeline := [oldest] + p.timeline), entry).liveScores == HandleFrame(p, entry).liveScores
  {
    var q := p.(timeline := [oldest] + p.timeline);
    var t1 := q.timeline + [entry];
    var t2 := p.timeline + [entry];
    assert t1[1..] == t2;
    assert LiveWindow(t1) == LiveWindow(t2) by {
      assert t1[|t1| - LiveWindowSize..] == t1[1..][|t2| - LiveWindowSize..];
    }
    assert HandleFrame(q, entry).liveScores == CalculateAllScores(LiveWindow(t1));
  }

  // ---- final scoring -----------------------------------------------------------

  const DefaultSpeechScore: real := 50.0

  /** The non-verbal axis: the rounded mean of the three video scores, which lies between
      the lowest and the highest of them. */
  function NonverbalExpression(s: CommunicationScores): (n: int)
    ensures n == Round((s.expressiveness + s.gestureActivity + s.posturalOpenness) as real / 3.0)
    ensures Min(Min(s.expressiveness as real, s.gestureActivity as real), s.posturalOpenness as real) <= n as real
    ensures n as real <= Max(Max(s.expressiveness as real, s.gestureActivity as real), s.posturalOpenness as real)
  {
    var e := s.expressiveness as real;
    var g := s.gestureActivity as real;
    var o := s.posturalOpenness as real;
    var mean := (e + g + o) / 3.0;
    var lo := Min(Min(e, g), o);
    var hi := Max(Max(e, g), o);
    assert lo <= mean <= hi;
    var ilo := if lo == e then s.expressiveness else if lo == g then s.gestureActivity else s.posturalOpenness;
    var ihi := if hi == e then s.expressiveness else if hi == g then s.gestureActivity else s.posturalOpenness;
    assert ilo as real == lo && ihi as real == hi;
    RoundWithin(mean, ilo, ihi);
    Round(mean)
  }

  /** `handleAnalyze`: the non-verbal axis is the rounded mean of the three video scores;
      the speech axes come from the speech analysis when the user transcript is not blank
      and it succeeds, and are 50 otherwise. `analyze` is the speech-analysis service. */
  function HandleAnalyze(p: Page, now: real, analyze: (string, real) -> Result<AnalyzeSpeech.SpeechAnalysisResult, string>): (a: AxisScores)
    ensures var s := CalculateAllScores(p.timeline);
      && a.nonverbalExpression == Round((s.expressiveness + s.gestureActivity + s.posturalOpenness) as real / 3.0)
      && Min(Min(s.expressiveness as real, s.gestureActivity as real), s.posturalOpenness as real) <= a.nonverbalExpression as real
      && a.nonverbalExpression as real <= Max(Max(s.expressiveness as real, s.gestureActivity as real), s.posturalOpenness as real)
    ensures var transcript := Conversation.UserTranscript(p.conversation);
      var speech := analyze(transcript, Conversation.Duration(p.conversation, now));
      && (Blank(transcript) || speech.Err? ==>
            a.assertiveness == DefaultSpeechScore && a.listening == DefaultSpeechScore
            && a.nonverbalReading == DefaultSpeechScore)
      && (!Blank(transcript) && speech.Ok? ==>
            a.assertiveness == speech.value.assertiveness && a.listening == speech.value.listening
            && a.nonverbalReading == speech.value.nonverbalReading)
  {
    var nonverbal := NonverbalExpression(CalculateAllScores(p.timeline));
    var transcript := Conversation.UserTranscript(p.conversation);
    var duration := Conversation.Duration(p.conversation, now);
    var speech := if Blank(transcript) then Err("") else analyze(transcript, duration);
    if speech.Ok? then
      AxisScores(speech.value.assertiveness, speech.value.listening, nonverbal, speech.value.nonverbalReading)
    else
      AxisScores(DefaultSpeechScore, DefaultSpeechScore, nonverbal, DefaultSpeechScore)
  }

  /** With the speech service backed by the analysis route, every axis of a valid
      timeline's result lies in [0, 100]. */
  lemma AxesInRange(p: Page, now: real, hasApiKey: bool,
                    model: AnalyzeSpeech.Prompt -> AnalyzeSpeech.ModelReply,
                    parse: string -> Option<AnalyzeSpeech.Parsed>)
    requires TimelineValid(p.timeline)
    ensures var a := HandleAnalyze(p, now, (t, d) => AnalyzeSpeech.AnalyzeViaRoute(t, d, hasApiKey, model, parse));
      && 0.0 <= a.assertiveness <= 100.0 && 0.0 <= a.listening <= 100.0
      && 0 <= a.nonverbalExpression <= 100 && 0.0 <= a.nonverbalReading <= 100.0
  {
    var analyze := (t, d) => AnalyzeSpeech.AnalyzeViaRoute(t, d, hasApiKey, model, parse);
    var s := CalculateAllScores(p.timeline);
    var a := HandleAnalyze(p, now, analyze);
    assert 0.0 <= Min(Min(s.expressiveness as real, s.gestureActivity as real), s.posturalOpenness as real);
    assert Max(Max(s.expressiveness as real, s.gestureActivity as real), s.posturalOpenness as real) <= 100.0;
    var transcript := Conversation.UserTranscript(p.conversation);
    var speech := analyze(transcript, Conversation.Duration(p.conversation, now));
    if !Blank(transcript) && speech.Ok? {
      assert speech.value.InRange();
    }
  }

  // ---- the page as a whole -----------------------------------------------------

  /** The events the page reacts to, each with the collaborator outcomes it meets. */
  datatype Event =
    | Start(sv: Services)
    | Send(sv: Services)
    | SilenceTimer(generation: nat, sv: Services)
    | RecognitionResult(parts: seq<string>)
    | ChunkRecorded(size: nat)
    | Frame(entry: TimelineEntry)
    | End

  function Apply(p: Page, e: Event): (r: Outcome)
    ensures p.Synced() ==> r.page.Synced()
    ensures p.recorder.Valid() ==> r.page.recorder.Valid()
  {
    match e
    case Start(sv) => HandleStartConversation(p, sv)
    case Send(sv) => HandleSendMessage(p, sv)
    case SilenceTimer(g, sv) => OnSilenceTimer(p, g, sv)
    case RecognitionResult(parts) => Outcome(p.(recorder := AudioRecorder.OnResult(p.recorder, parts)), [])
    case ChunkRecorded(size) => Outcome(p.(recorder := AudioRecorder.DataAvailable(p.recorder, size)), [])
    case Frame(entry) => Outcome(HandleFrame(p, entry), [])
    case End => HandleEndConversation(p)
  }

  /** A run of events from `p`, with every effect in order. */
  function Run(p: Page, es: seq<Event>): Outcome
  {
    if |es| == 0 then Outcome(p, [])
    else
      var before := Run(p, es[..|es| - 1]);
      var step := Apply(before.page, es[|es| - 1]);
      Outcome(step.page, before.effects + step.effects)
  }

  /** The phase and its mirror never disagree after any run, and the recorder's timer
      bookkeeping stays consistent. */
  lemma {:induction false} RunKeepsMirror(p: Page, es: seq<Event>)
    requires p.Synced() && p.recorder.Valid()
    ensures Run(p, es).page.Synced() && Run(p, es).page.recorder.Valid()
  {
    if |es| > 0 {
      RunKeepsMirror(p, es[..|es| - 1]);
    }
  }

  /** Frames keep the timeline valid when every frame's entry is valid. */
  lemma {:induction false} FramesKeepTimelineValid(p: Page, es: seq<Event>)
    requires TimelineValid(p.timeline)
    requires forall i :: 0 <= i < |es| ==> es[i].Frame? && es[i].entry.Valid()
    ensures Run(p, es).page.timeline == p.timeline + FrameEntries(es)
    ensures TimelineValid(Run(p, es).page.timeline)
  {
    if |es| > 0 {
      var init := es[..|es| - 1];
      FramesKeepTimelineValid(p, init);
      var before := Run(p, init);
      var last := es[|es| - 1];
      FrameAppends(before.page, last.entry);
      assert Run(p, es).page == Apply(before.page, last).page;
      assert FrameEntries(es) == FrameEntries(init) + [last.entry];
      assert p.timeline + FrameEntries(es) == before.page.timeline + [last.entry];
    }
  }

  lemma FrameAppends(p: Page, entry: TimelineEntry)
    ensures Apply(p, Frame(entry)).page.timeline == p.timeline + [entry]
  {
  }

  /** The entries a run of frame events records. */
  function FrameEntries(es: seq<Event>): (t: seq<TimelineEntry>)
    requires forall i :: 0 <= i < |es| ==> es[i].Frame?
    ensures |t| == |es| && forall i :: 0 <= i < |es| ==> t[i] == es[i].entry
  {
    if |es| == 0 then [] else FrameEntries(es[..|es| - 1]) + [es[|es| - 1].entry]
  }
}

=== FILE: analysis_types.dfy ===
/** The per-frame feature records and the score records of the analysis pipeline.
    Every range a field is documented with is captured by a `Valid` predicate,
    which the extractors establish and the scoring engine relies on. */
module AnalysisTypes {
  import opened Common

  /** The seven expression channels, in the key order of the expression record. */
  datatype Emotion = Neutral | Happy | Sad | Angry | Fearful | Disgusted | Surprised

  const EmotionOrder: seq<Emotion> := [Neutral, Happy, Sad, Angry, Fearful, Disgusted, Surprised]

  /** Position of a channel in `EmotionOrder`. */
  function Rank(e: Emotion): (k: nat)
    ensures k < |EmotionOrder| && EmotionOrder[k] == e
  {
    match e
    case Neutral => 0
    case Happy => 1
    case Sad => 2
    case Angry => 3
    case Fearful => 4
    case Disgusted => 5
    case Surprised => 6
  }

  /** Per-channel classifier probabilities for one face. */
  datatype Expressions = Expressions(
    neutral: real, happy: real, sad: real, angry: real,
    fearful: real, disgusted: real, surprised: real)

  function Channel(x: Expressions, e: Emotion): real
  {
    match e
    case Neutral => x.neutral
    case Happy => x.happy
    case Sad => x.sad
    case Angry => x.angry
    case Fearful => x.fearful
    case Disgusted => x.disgusted
    case Surprised => x.surprised
  }

  datatype Pose = Pose(shoulderOpenness: real, leanAngle: real, stability: real)
  {
    predicate Valid()
    {
      && 0.0 <= shoulderOpenness <= 1.0
      && -1.0 <= leanAngle <= 1.0
      && 0.0 <= stability <= 1.0
    }
  }

  datatype Gesture = Gesture(leftHandMovement: real, rightHandMovement: real, gestureFrequency: real)
  {
    predicate Valid()
    {
      && 0.0 <= leftHandMovement <= 1.0
      && 0.0 <= rightHandMovement <= 1.0
      && gestureFrequency == (leftHandMovement + rightHandMovement) / 2.0
    }
  }

  datatype HeadPose = HeadPose(pitch: real, yaw: real, roll: real, isNodding: bool)
  {
    predicate Valid()
    {
      -1.0 <= pitch <= 1.0 && -1.0 <= yaw <= 1.0 && -1.0 <= roll <= 1.0
    }
  }

  datatype Gaze = Gaze(
    lookingAtCamera: bool, gazeX: real, gazeY: real, leftOpenness: real, rightOpenness: real)
  {
    predicate Valid()
    {
      && -1.0 <= gazeX <= 1.0 && -1.0 <= gazeY <= 1.0
      && 0.0 <= leftOpenness <= 1.0 && 0.0 <= rightOpenness <= 1.0
    }
  }

  datatype HandShape = HandShape(
    isOpen: bool, isFist: bool, isPeace: bool, isPointing: bool, isThumbUp: bool, fingerCount: nat)

  datatype HandShapeData = HandShapeData(left: Option<HandShape>, right: Option<HandShape>)

  datatype BodyMovement = BodyMovement(
    leftArmRaised: real, rightArmRaised: real, lateral: real, forward: real, bodySway: real)
  {
    predicate Valid()
    {
      && 0.0 <= leftArmRaised <= 1.0 && 0.0 <= rightArmRaised <= 1.0
      && -1.0 <= lateral <= 1.0 && -1.0 <= forward <= 1.0
      && 0.0 <= bodySway <= 1.0
    }
  }

  /** One timeline snapshot; a sub-record is `None` when its body part was not detected. */
  datatype TimelineEntry = TimelineEntry(
    timestamp: real,
    expressions: Option<Expressions>,
    pose: Option<Pose>,
    gesture: Option<Gesture>,
    headPose: Option<HeadPose>,
    gaze: Option<Gaze>,
    handShape: Option<HandShapeData>,
    bodyMovement: Option<BodyMovement>)
  {
    /** The ranges the scoring engine relies on. */
    predicate Valid()
    {
      && (pose.Some? ==> pose.value.Valid())
      && (gesture.Some? ==> gesture.value.Valid())
    }
  }

  /** The three detail scores the scoring engine computes. */
  datatype CommunicationScores = CommunicationScores(
    expressiveness: int, gestureActivity: int, posturalOpenness: int)

  /** The four top-level axes of the final result. */
  datatype AxisScores = AxisScores(
    assertiveness: real, listening: real, nonverbalExpression: int, nonverbalReading: real)

  datatype SessionSummary = SessionSummary(
    dominantEmotion: Emotion,
    emotionDistribution: map<Emotion, int>,
    averageGestureFrequency: real,
    postureStability: real)
}

=== FILE: analyze_speech.dfy ===
/** The speech-analysis route: the input check, the speech rate, and the
    post-processing of the language model's reply (fallback on an unparsable reply,
    clamping of each axis, a fallback for missing reasons). The model call and
    `JSON.parse` are parameters. */
module AnalyzeSpeech {
  import opened Common
  import opened Numeric
  import opened Strings

  const EmptyTranscriptError: string := "会話テキストが空です"
  const MissingKeyError: string := "OpenAI APIキーが設定されていません"
  const ModelCallError: string := "GPT分析に失敗しました"
  const EmptyReplyError: string := "GPTからの応答が空です"
  const InternalError: string := "分析中にエラーが発生しました"
  const UnparsableReason: string := "分析できませんでした"

  datatype Reasons = Reasons(assertiveness: string, listening: string, nonverbalReading: string)

  /** What `JSON.parse` made of the reply: three numeric axes and, perhaps, reasons. */
  datatype Parsed = Parsed(assertiveness: real, listening: real, nonverbalReading: real, reasons: Option<Reasons>)

  datatype SpeechAnalysisResult = SpeechAnalysisResult(
    assertiveness: real, listening: real, nonverbalReading: real, reasons: Reasons)
  {
    predicate InRange()
    {
      && 0.0 <= assertiveness <= 100.0
      && 0.0 <= listening <= 100.0
      && 0.0 <= nonverbalReading <= 100.0
    }
  }

  /** The request body: a transcript (perhaps missing) and a duration in seconds, or a
      body that does not parse. */
  datatype Request = Request(transcript: Option<string>, duration: real) | Unreadable

  /** What the user prompt carries to the model. */
  datatype Prompt = Prompt(transcript: string, speechRate: real, duration: real)

  /** The model endpoint either fails (non-OK status) or answers with the first choice's
      content, which may be missing. */
  datatype ModelReply = ModelFailed | ModelAnswered(content: Option<string>)

  datatype Response = Success(result: SpeechAnalysisResult) | Failure(status: nat, message: string)

  /** The response, and the prompt sent to the model if one was sent. */
  datatype RouteStep = RouteStep(response: Response, prompt: Option<Prompt>)

  /** Characters per second; 0 when the duration is not positive. */
  function SpeechRate(length: nat, duration: real): (rate: real)
    ensures duration > 0.0 ==> rate * duration == length as real && rate >= 0.0
    ensures duration <= 0.0 ==> rate == 0.0
  {
    if duration > 0.0 then length as real / duration else 0.0
  }

  /** The result substituted when the reply is not JSON. */
  const Unparsable: Parsed :=
    Parsed(50.0, 50.0, 50.0, Some(Reasons(UnparsableReason, UnparsableReason, UnparsableReason)))

  const NoReasons: Reasons := Reasons("", "", "")

  /** Clamps every axis to [0, 100] and fills in missing reasons. */
  function Normalize(p: Parsed): (r: SpeechAnalysisResult)
    ensures r.InRange()
    ensures 0.0 <= p.assertiveness <= 100.0 ==> r.assertiveness == p.assertiveness
    ensures 0.0 <= p.listening <= 100.0 ==> r.listening == p.listening
    ensures 0.0 <= p.nonverbalReading <= 100.0 ==> r.nonverbalReading == p.nonverbalReading
    ensures p.assertiveness < 0.0 ==> r.assertiveness == 0.0
    ensures p.assertiveness > 100.0 ==> r.assertiveness == 100.0
    ensures p.listening < 0.0 ==> r.listening == 0.0
    ensures p.listening > 100.0 ==> r.listening == 100.0
    ensures p.nonverbalReading < 0.0 ==> r.nonverbalReading == 0.0
    ensures p.nonverbalReading > 100.0 ==> r.nonverbalReading == 100.0
    ensures p.reasons.Some? ==> r.reasons == p.reasons.value
    ensures p.reasons.None? ==> r.reasons == NoReasons
  {
    SpeechAnalysisResult(
      Max(0.0, Min(100.0, p.assertiveness)),
      Max(0.0, Min(100.0, p.listening)),
      Max(0.0, Min(100.0, p.nonverbalReading)),
      if p.reasons.Some? then p.reasons.value else NoReasons)
  }

  /** The result read back as a parsed reply. */
  function AsParsed(r: SpeechAnalysisResult): Parsed
  {
    Parsed(r.assertiveness, r.listening, r.nonverbalReading, Some(r.reasons))
  }

  /** Normalising is idempotent: a normalised result passes through unchanged. */
  lemma NormalizeIdempotent(p: Parsed)
    ensures Normalize(AsParsed(Normalize(p))) == Normalize(p)
  {
  }

  /** A result already in range is exactly what normalisation keeps. */
  lemma NormalizeKeepsInRange(r: SpeechAnalysisResult)
    ensures Normalize(AsParsed(r)) == r <==> r.InRange()
  {
  }

  /** `POST /api/analyze-speech`. `hasApiKey` says whether the key is configured; `model`
      is the chat-completions call; `parse` is `JSON.parse` (None when it throws). */
  function Post(req: Request, hasApiKey: bool, model: Prompt -> ModelReply, parse: string -> Option<Parsed>): (r: RouteStep)
    ensures req.Unreadable? ==> r == RouteStep(Failure(500, InternalError), None)
    ensures req.Request? && (req.transcript.None? || Blank(req.transcript.value)) ==>
      r == RouteStep(Failure(400, EmptyTranscriptError), None)
    ensures req.Request? && req.transcript.Some? && !Blank(req.transcript.value) ==>
      && (!hasApiKey ==> r == RouteStep(Failure(500, MissingKeyError), None))
      && (hasApiKey ==> r.prompt == Some(Prompt(req.transcript.value,
                                                SpeechRate(|req.transcript.value|, req.duration),
                                                req.duration)))
    ensures r.prompt.Some? ==> match model(r.prompt.value)
      case ModelFailed => r.response == Failure(500, ModelCallError)
      case ModelAnswered(content) =>
        if content.None? || Trim(content.value) == "" then r.response == Failure(500, EmptyReplyError)
        else match parse(Trim(content.value))
          case None => r.response == Success(Normalize(Unparsable))
          case Some(p) => r.response == Success(Normalize(p))
    ensures r.response.Success? ==> r.response.result.InRange()
  {
    match req
    case Unreadable => RouteStep(Failure(500, InternalError), None)
    case Request(transcript, duration) =>
      if transcript.None? || Trim(transcript.value) == "" then RouteStep(Failure(400, EmptyTranscriptError), None)
      else if !hasApiKey then RouteStep(Failure(500, MissingKeyError), None)
      else
        var text := transcript.value;
        var prompt := Prompt(text, SpeechRate(|text|, duration), duration);
        RouteStep(Reply(model(prompt), parse), Some(prompt))
  }

  /** The post-processing of the model's reply. */
  function Reply(reply: ModelReply, parse: string -> Option<Parsed>): (r: Response)
    ensures r.Success? ==> r.result.InRange()
    ensures r.Failure? ==> r.status == 500
  {
    match reply
    case ModelFailed => Failure(500, ModelCallError)
    case ModelAnswered(content) =>
      if content.None? then Failure(500, EmptyReplyError)
      else
        var trimmed := Trim(content.value);
        if trimmed == "" then Failure(500, EmptyReplyError)
        else
          var parsed := parse(trimmed);
          Success(Normalize(if parsed.Some? then parsed.value else Unparsable))
  }

  /** An unparsable reply scores 50 on every axis with the fixed reasons. */
  lemma UnparsableReplyScoresFifty(content: string, parse: string -> Option<Parsed>)
    requires !Blank(content) && parse(Trim(content)).None?
    ensures Reply(ModelAnswered(Some(content)), parse)
      == Success(SpeechAnalysisResult(50.0, 50.0, 50.0,
                   Reasons(UnparsableReason, UnparsableReason, UnparsableReason)))
  {
  }

  /** The client service (`analyzeSpeech`): the three axes of a successful response, or the
      response's error message as a thrown error. */
  function AnalyzeViaRoute(transcript: string, duration: real, hasApiKey: bool,
                           model: Prompt -> ModelReply, parse: string -> Option<Parsed>): (r: Result<SpeechAnalysisResult, string>)
    ensures r.Ok? ==> r.value.InRange() && !Blank(transcript)
  {
    match Post(Request(Some(transcript), duration), hasApiKey, model, parse).response
    case Success(result) => Ok(result)
    case Failure(_, message) => Err(message)
  }
}

=== FILE: audio_recorder.dfy ===
/** The recorder's silence-detection bookkeeping: the active flag, the last live
    transcript, the silence timer, the recorded chunks and the recorder handle.
    Timers carry a generation number so that a cleared timer is told apart from the
    one currently armed: only the armed generation can fire. */
module AudioRecorder {
  import opened Common

  /** The silence timeout the analysis page passes (and the default), in milliseconds. */
  const SilenceTimeoutMs: nat := 2000

  const MicrophoneError: string := "マイクへのアクセスに失敗しました"

  datatype Timer = NoTimer | Armed(generation: nat)

  /** The media recorder handle: none created yet, recording, or stopped (`inactive`). */
  datatype Device = NoRecorder | Recording | Inactive

  datatype Recorder = Recorder(
    active: bool,
    lastTranscript: string,
    timer: Timer,
    nextGeneration: nat,
    chunks: seq<nat>,
    device: Device,
    isRecording: bool,
    error: Option<string>,
    recognitionAvailable: bool)
  {
    /** Every armed timer was issued before the next generation number. */
    predicate Valid()
    {
      timer.Armed? ==> timer.generation < nextGeneration
    }
  }

  function Initial(recognitionAvailable: bool): (r: Recorder)
    ensures r.Valid() && !r.active && r.timer.NoTimer?
  {
    Recorder(false, "", NoTimer, 0, [], NoRecorder, false, None, recognitionAvailable)
  }

  /** `startRecording`; `micOk` says whether the microphone was acquired. */
  function StartRecording(s: Recorder, micOk: bool): (r: Recorder)
    ensures r.chunks == [] && r.lastTranscript == ""
    ensures r.timer == s.timer && r.nextGeneration == s.nextGeneration
    ensures micOk ==> r.active && r.device == Recording && r.isRecording && r.error.None?
    ensures !micOk ==>
      && !r.active && r.error == Some(MicrophoneError)
      && r.device == s.device && r.isRecording == s.isRecording
    ensures s.Valid() ==> r.Valid()
  {
    var cleared := s.(error := None, chunks := [], lastTranscript := "", active := true);
    if micOk then cleared.(device := Recording, isRecording := true)
    else cleared.(error := Some(MicrophoneError), active := false)
  }

  /** The live transcript: the recognition results concatenated in order. */
  function Concat(parts: seq<string>): string
  {
    if |parts| == 0 then "" else Concat(parts[..|parts| - 1]) + parts[|parts| - 1]
  }

  /** `recognition.onresult`: an unchanged transcript does nothing; a changed one clears
      the pending timer and arms a fresh one only for non-empty speech while active. */
  function OnResult(s: Recorder, parts: seq<string>): (r: Recorder)
    ensures Concat(parts) == s.lastTranscript ==> r == s
    ensures Concat(parts) != s.lastTranscript ==>
      && r.lastTranscript == Concat(parts)
      && (r.timer.Armed? <==> |Concat(parts)| > 0 && s.active)
      && (r.timer.Armed? ==> r.timer.generation == s.nextGeneration)
      && r.(lastTranscript := s.lastTranscript, timer := s.timer, nextGeneration := s.nextGeneration) == s
    ensures s.Valid() ==> r.Valid()
  {
    var current := Concat(parts);
    if current == s.lastTranscript then s
    else
      var updated := s.(lastTranscript := current, timer := NoTimer);
      if |current| > 0 && s.active then
        updated.(timer := Armed(s.nextGeneration), nextGeneration := s.nextGeneration + 1)
      else updated
  }

  /** The silence timer of generation `g` elapses. A cleared timer never runs; the armed
      one invokes the silence callback only if the recorder is still active. */
  function FireTimer(s: Recorder, g: nat): (r: (Recorder, bool))
    ensures r.1 <==> s.timer == Armed(g) && s.active
    ensures s.timer == Armed(g) ==> r.0 == s.(timer := NoTimer)
    ensures s.timer != Armed(g) ==> r.0 == s
  {
    if s.timer == Armed(g) then (s.(timer := NoTimer), s.active) else (s, false)
  }

  /** A changed transcript cancels the timer that was pending: it can no longer fire. */
  lemma ChangedTranscriptCancelsPendingTimer(s: Recorder, parts: seq<string>, g: nat)
    requires s.Valid() && s.timer == Armed(g)
    requires Concat(parts) != s.lastTranscript
    ensures !FireTimer(OnResult(s, parts), g).1
  {
  }

  /** `recognition.onend`: whether recognition is restarted. */
  function RestartsOnEnd(s: Recorder): (restart: bool)
    ensures restart ==> s.active
    ensures s.active && s.recognitionAvailable ==> restart
  {
    s.active && s.recognitionAvailable
  }

  /** `ondataavailable`: non-empty chunks are kept. */
  function DataAvailable(s: Recorder, size: nat): (r: Recorder)
    ensures size > 0 ==> r == s.(chunks := s.chunks + [size])
    ensures size == 0 ==> r == s
  {
    if size > 0 then s.(chunks := s.chunks + [size]) else s
  }

  /** `stopRecording`: deactivates and disarms before anything else; yields the recorded
      clip (its chunk sizes) when a recorder was recording, `None` otherwise. */
  function StopRecording(s: Recorder): (r: (Recorder, Option<seq<nat>>))
    ensures !r.0.active && r.0.timer.NoTimer? && !r.0.isRecording
    ensures r.0.nextGeneration == s.nextGeneration
    ensures s.device != Recording ==> r.1.None? && r.0.device == s.device
    ensures s.device == Recording ==> r.1 == Some(s.chunks) && r.0.chunks == [] && r.0.device == Inactive
    ensures r.0.Valid()
  {
    var halted := s.(active := false, timer := NoTimer);
    if s.device != Recording then (halted.(isRecording := false), None)
    else (halted.(chunks := [], device := Inactive, isRecording := false), Some(s.chunks))
  }

  /** Once stopped, no silence timer can invoke the callback. */
  lemma NoSilenceAfterStop(s: Recorder, g: nat)
    ensures !FireTimer(StopRecording(s).0, g).1
  {
  }

  function ClipSize(clip: seq<nat>): nat
  {
    if |clip| == 0 then 0 else ClipSize(clip[..|clip| - 1]) + clip[|clip| - 1]
  }

  /** The recorder after stopping, the transcription (or the error it threw), and whether
      the transcription service was called at all. */
  datatype TranscribeStep = TranscribeStep(recorder: Recorder, result: Result<string, string>, requested: bool)

  /** `stopAndTranscribe`; `transcribe` is the transcription endpoint. */
  function StopAndTranscribe(s: Recorder, transcribe: seq<nat> -> Result<string, string>): (r: TranscribeStep)
    ensures !r.recorder.active && r.recorder.timer.NoTimer? && r.recorder.Valid()
    ensures r.recorder.nextGeneration == s.nextGeneration
    ensures (s.device != Recording || ClipSize(s.chunks) == 0) ==> r.result == Ok("") && !r.requested
    ensures (s.device == Recording && ClipSize(s.chunks) > 0) ==> r.requested && r.result == transcribe(s.chunks)
  {
    var (stopped, clip) := StopRecording(s);
    if clip.None? || ClipSize(clip.value) == 0 then TranscribeStep(stopped, Ok(""), false)
    else TranscribeStep(stopped, transcribe(clip.value), true)
  }

  /** Only non-empty chunks are kept, so a recording with any data yields a non-empty clip. */
  lemma {:induction false} KeptChunksArePositive(s: Recorder, sizes: seq<nat>)
    requires forall i :: 0 <= i < |s.chunks| ==> s.chunks[i] > 0
    ensures var r := DataAvailableAll(s, sizes);
      && (forall i :: 0 <= i < |r.chunks| ==> r.chunks[i] > 0)
      && (ClipSize(r.chunks) == 0 <==> |r.chunks| == 0)
  {
    if |sizes| > 0 {
      KeptChunksArePositive(s, sizes[..|sizes| - 1]);
    }
    PositiveChunksSize(DataAvailableAll(s, sizes).chunks);
  }

  lemma {:induction false} PositiveChunksSize(chunks: seq<nat>)
    requires forall i :: 0 <= i < |chunks| ==> chunks[i] > 0
    ensures ClipSize(chunks) == 0 <==> |chunks| == 0
  {
    if |chunks| > 0 {
      PositiveChunksSize(chunks[..|chunks| - 1]);
    }
  }

  function DataAvailableAll(s: Recorder, sizes: seq<nat>): Recorder
  {
    if |sizes| == 0 then s else DataAvailable(DataAvailableAll(s, sizes[..|sizes| - 1]), sizes[|sizes| - 1])
  }
}

=== FILE: common.dfy ===
/** Failure-compatible wrappers shared by every module of the model. */
module Common {

  /** A value that may be absent: TypeScript's `T | null` (or an `undefined` property). */
  datatype Option<+T> = None | Some(value: T)

  /** The outcome of an operation that may throw: `Ok` carries the resolved value,
      `Err` the message of the error the source rethrows. */
  datatype Result<+T, +E> = Ok(value: T) | Err(error: E)
}

=== FILE: conversation.dfy ===
/** The conversation log: the message list, the single pending-assistant-message slot
    used to delay a reply until it has been spoken, and the session start time.
    The chat endpoint is a parameter `chat` from request to reply; the clock is `now`. */
module Conversation {
  import opened Common
  import opened Strings

  datatype Role = User | Assistant

  datatype Message = Message(role: Role, content: string, timestamp: real)

  /** A message as the chat request carries it (role and content only). */
  datatype Turn = Turn(role: Role, content: string)

  datatype ChatRequest = ChatRequest(history: seq<Turn>, isFirstMessage: bool)

  /** What the chat endpoint answered: a reply (with the time it arrived) or a failure. */
  datatype ChatReply = Replied(text: string, at: real) | Failed(reason: string)

  /** An assistant message held back together with the history it answers. */
  datatype Pending = Pending(message: Message, snapshot: seq<Message>)

  datatype State = State(
    messages: seq<Message>,
    error: Option<string>,
    startTime: real,
    pending: Option<Pending>)

  /** The new state, and what the call resolves to or rethrows. */
  datatype Step = Step(state: State, result: Result<string, string>)

  const Initial: State := State([], None, 0.0, None)

  function Turns(ms: seq<Message>): (ts: seq<Turn>)
    ensures |ts| == |ms|
    ensures forall i :: 0 <= i < |ms| ==> ts[i] == Turn(ms[i].role, ms[i].content)
  {
    seq(|ms|, i requires 0 <= i < |ms| => Turn(ms[i].role, ms[i].content))
  }

  /** `startConversation(delayAddMessage)`: clears the log and stamps the start time,
      then asks for an opening line with an empty history. */
  function StartConversation(s: State, delay: bool, now: real, chat: ChatRequest -> ChatReply): (r: Step)
    ensures r.state.startTime == now
    ensures chat(ChatRequest([], true)).Failed? ==>
      && r.result == Err(chat(ChatRequest([], true)).reason)
      && r.state.messages == [] && r.state.error.Some?
      && r.state.pending == s.pending
    ensures chat(ChatRequest([], true)).Replied? ==>
      var ai := Message(Assistant, chat(ChatRequest([], true)).text, chat(ChatRequest([], true)).at);
      && r.result == Ok(ai.content) && r.state.error.None?
      && (delay ==> r.state.messages == [] && r.state.pending == Some(Pending(ai, [])))
      && (!delay ==> r.state.messages == [ai] && r.state.pending == s.pending)
  {
    var cleared := s.(messages := [], error := None, startTime := now);
    match chat(ChatRequest([], true))
    case Failed(reason) => Step(cleared.(error := Some(reason)), Err(reason))
    case Replied(text, at) =>
      var ai := Message(Assistant, text, at);
      if delay then Step(cleared.(pending := Some(Pending(ai, []))), Ok(text))
      else Step(cleared.(messages := [ai]), Ok(text))
  }

  /** The request `sendMessage` makes for a non-blank message: the full log plus it. */
  function SendRequest(s: State, text: string, now: real): ChatRequest
  {
    ChatRequest(Turns(s.messages + [Message(User, text, now)]), false)
  }

  /** `sendMessage(userMessage, delayAddMessage)`. */
  function SendMessage(s: State, text: string, delay: bool, now: real, chat: ChatRequest -> ChatReply): (r: Step)
    ensures Blank(text) ==> r == Step(s, Ok(""))
    ensures !Blank(text) ==>
      var user := Message(User, text, now);
      var reply := chat(SendRequest(s, text, now));
      && SendRequest(s, text, now).history == Turns(s.messages + [user])
      && r.state.startTime == s.startTime
      && (reply.Failed? ==>
            && r.result == Err(reply.reason) && r.state.error == Some(reply.reason)
            && r.state.messages == s.messages + [user] && r.state.pending == s.pending)
      && (reply.Replied? ==>
            var ai := Message(Assistant, reply.text, reply.at);
            && r.result == Ok(reply.text) && r.state.error.None?
            && (delay ==> r.state.messages == s.messages + [user]
                          && r.state.pending == Some(Pending(ai, s.messages + [user])))
            && (!delay ==> r.state.messages == s.messages + [user, ai] && r.state.pending == s.pending))
  {
    if Blank(text) then Step(s, Ok(""))
    else
      var updated := s.messages + [Message(User, text, now)];
      var sent := s.(messages := updated, error := None);
      match chat(SendRequest(s, text, now))
      case Failed(reason) => Step(sent.(error := Some(reason)), Err(reason))
      case Replied(reply, at) =>
        var ai := Message(Assistant, reply, at);
        if delay then Step(sent.(pending := Some(Pending(ai, updated))), Ok(reply))
        else Step(sent.(messages := updated + [ai]), Ok(reply))
  }

  /** `addPendingMessage`: commits the held-back message after its snapshot, clearing the slot. */
  function AddPendingMessage(s: State): (r: State)
    ensures r.pending.None?
    ensures s.pending.Some? ==> r.messages == s.pending.value.snapshot + [s.pending.value.message]
    ensures s.pending.None? ==> r == s
    ensures r.error == s.error && r.startTime == s.startTime
  {
    match s.pending
    case None => s
    case Some(p) => s.(messages := p.snapshot + [p.message], pending := None)
  }

  /** Committing twice is the same as committing once. */
  lemma AddPendingIdempotent(s: State)
    ensures AddPendingMessage(AddPendingMessage(s)) == AddPendingMessage(s)
  {
  }

  /** Delayed mode, once committed, yields the same log as immediate mode. */
  lemma DelayedSendCommitsSameLog(s: State, text: string, now: real, chat: ChatRequest -> ChatReply)
    requires !Blank(text)
    requires chat(SendRequest(s, text, now)).Replied?
    ensures AddPendingMessage(SendMessage(s, text, true, now, chat).state).messages
         == SendMessage(s, text, false, now, chat).state.messages
  {
    var reply := chat(SendRequest(s, text, now));
    var user := Message(User, text, now);
    assert (s.messages + [user]) + [Message(Assistant, reply.text, reply.at)]
        == s.messages + [user, Message(Assistant, reply.text, reply.at)];
  }

  lemma DelayedStartCommitsSameLog(s: State, now: real, chat: ChatRequest -> ChatReply)
    requires chat(ChatRequest([], true)).Replied?
    ensures AddPendingMessage(StartConversation(s, true, now, chat).state).messages
         == StartConversation(s, false, now, chat).state.messages
  {
  }

  /** `reset`. The pending slot is not cleared. */
  function Reset(s: State): (r: State)
    ensures r.messages == [] && r.error.None? && r.startTime == 0.0
    ensures r.pending == s.pending
  {
    s.(messages := [], error := None, startTime := 0.0)
  }

  /** The contents of the user messages, in order. */
  function UserContents(ms: seq<Message>): seq<string>
  {
    if |ms| == 0 then []
    else UserContents(ms[..|ms| - 1]) + (if ms[|ms| - 1].role == User then [ms[|ms| - 1].content] else [])
  }

  /** `getUserTranscript`: the user messages joined by newlines. */
  function UserTranscript(s: State): (t: string)
    ensures UserContents(s.messages) == [] ==> t == ""
    ensures |UserContents(s.messages)| == 1 ==> t == UserContents(s.messages)[0]
  {
    Join(UserContents(s.messages), "\n")
  }

  /** Assistant messages do not reach the transcript; each user message adds one line. */
  lemma TranscriptOfAppend(s: State, m: Message)
    ensures var t := UserTranscript(s.(messages := s.messages + [m]));
      && (m.role == Assistant ==> t == UserTranscript(s))
      && (m.role == User ==>
            t == if UserContents(s.messages) == [] then m.content else UserTranscript(s) + "\n" + m.content)
  {
    var ms := s.messages + [m];
    assert ms[..|ms| - 1] == s.messages;
    assert UserContents(ms) == UserContents(s.messages) + (if m.role == User then [m.content] else []);
    if m.role == Assistant {
      assert UserContents(ms) == UserContents(s.messages);
    }
    JoinAppend(UserContents(s.messages), m.content, "\n");
  }

  /** `getDuration`: seconds since the start, or 0 before any start or after a reset. */
  function Duration(s: State, now: real): (d: real)
    ensures s.startTime == 0.0 ==> d == 0.0
    ensures s.startTime != 0.0 ==> d * 1000.0 == now - s.startTime
  {
    if s.startTime == 0.0 then 0.0 else (now - s.startTime) / 1000.0
  }

  lemma DurationAfterReset(s: State, now: real)
    ensures Duration(Reset(s), now) == 0.0
  {
  }
}

=== FILE: face_api.dfy ===
/** The dominant-expression choice: the entries of an expression record sorted by
    descending probability with a stable sort, first key taken. */
module FaceApi {
  import opened AnalysisTypes

  /** `e` is what a stable descending sort of the channels puts first under `score`:
      no channel scores higher, and every channel ahead of `e` in key order scores lower. */
  ghost predicate IsStableMax(score: Emotion -> real, e: Emotion)
  {
    && (forall c :: score(c) <= score(e))
    && (forall c :: Rank(c) < Rank(e) ==> score(c) < score(e))
  }

  /** `best` is the stable maximum among the first `k` channels. */
  ghost predicate StableMaxOfPrefix(score: Emotion -> real, k: nat, best: Emotion)
  {
    && Rank(best) < k
    && (forall c :: Rank(c) < k ==> score(c) <= score(best))
    && (forall c :: Rank(c) < Rank(best) ==> score(c) < score(best))
  }

  /** Scans the channels from position `k` on, replacing the candidate only on a
      strictly higher score, which is how a stable sort orders ties. */
  function StableArgMaxFrom(score: Emotion -> real, k: nat, best: Emotion): (r: Emotion)
    requires 1 <= k <= |EmotionOrder|
    requires StableMaxOfPrefix(score, k, best)
    ensures IsStableMax(score, r)
    decreases |EmotionOrder| - k
  {
    if k == |EmotionOrder| then best
    else
      var c := EmotionOrder[k];
      var next := if score(c) > score(best) then c else best;
      assert StableMaxOfPrefix(score, k + 1, next) by {
        assert Rank(c) == k;
        forall d | Rank(d) < k + 1
          ensures score(d) <= score(next)
        {
          if Rank(d) == k {
            assert d == EmotionOrder[Rank(d)] == c;
          }
        }
      }
      StableArgMaxFrom(score, k + 1, next)
  }

  function StableArgMax(score: Emotion -> real): (r: Emotion)
    ensures IsStableMax(score, r)
  {
    StableArgMaxFrom(score, 1, Neutral)
  }

  /** `getDominantExpression`. */
  function DominantExpression(x: Expressions): (r: Emotion)
    ensures forall c :: Channel(x, c) <= Channel(x, r)
    ensures forall c :: Rank(c) < Rank(r) ==> Channel(x, c) < Channel(x, r)
  {
    var r := StableArgMax((e: Emotion) => Channel(x, e));
    assert IsStableMax((e: Emotion) => Channel(x, e), r);
    r
  }

  /** The stable maximum is unique, so the contract above determines the result. */
  lemma StableMaxUnique(score: Emotion -> real, a: Emotion, b: Emotion)
    requires IsStableMax(score, a) && IsStableMax(score, b)
    ensures a == b
  {
    assert Rank(a) == Rank(b);
    assert a == EmotionOrder[Rank(a)] == b;
  }

  /** Whenever neutral is maximal, ties included, the dominant expression is neutral. */
  lemma NeutralWinsTies(x: Expressions)
    requires forall c :: Channel(x, c) <= x.neutral
    ensures DominantExpression(x) == Neutral
  {
    var r := DominantExpression(x);
    assert Rank(r) == 0;
  }
}

=== FILE: media_pipe.dfy ===
/** The keypoint normaliser: per-frame mappings from landmark arrays to clamped feature
    records. The module-level rolling state of the source (last wrist positions, last body
    centre, pitch history) is an explicit `NormalizerState` threaded through the extractors. */
module MediaPipe {
  import opened Common
  import opened Numeric
  import opened AnalysisTypes

  datatype Landmark = Landmark(x: real, y: real, z: real)

  datatype Point = Point(x: real, y: real)

  /** One frame of detector output; a landmark set is `None` when it is undefined. */
  datatype Results = Results(
    poseLandmarks: Option<seq<Landmark>>,
    faceLandmarks: Option<seq<Landmark>>,
    leftHandLandmarks: Option<seq<Landmark>>,
    rightHandLandmarks: Option<seq<Landmark>>)

  /** `Math.sqrt`, uninterpreted except that it never returns a negative number. */
  type Root = f: real -> real | forall x :: 0.0 <= f(x) witness (x: real) => 0.0

  const PitchHistoryLength: nat := 10
  const NoddingLag: nat := 5
  const NoddingThreshold: real := 0.3

  datatype NormalizerState = NormalizerState(
    lastLeftHandPos: Option<Point>,
    lastRightHandPos: Option<Point>,
    lastBodyCenter: Option<Point>,
    lastPitchValues: seq<real>)
  {
    predicate Valid()
    {
      |lastPitchValues| <= PitchHistoryLength
    }
  }

  /** The state at module load: nothing seen yet. */
  const InitialState: NormalizerState := NormalizerState(None, None, None, [])

  // ---- what each extractor may read --------------------------------------

  /** The pose extractors read landmarks 0 to 24 once the pose set is defined. */
  predicate PoseReadable(f: Results)
  {
    f.poseLandmarks.None? || |f.poseLandmarks.value| >= 25
  }

  predicate FacePresent(f: Results)
  {
    f.faceLandmarks.Some? && |f.faceLandmarks.value| > 0
  }

  /** The head-pose extractor reads face landmarks up to 454. */
  predicate HeadPoseReadable(f: Results)
  {
    !FacePresent(f) || |f.faceLandmarks.value| >= 455
  }

  /** The gaze extractor reads face landmarks up to 386; the irises (468, 473) are optional. */
  predicate GazeReadable(f: Results)
  {
    !FacePresent(f) || |f.faceLandmarks.value| >= 387
  }

  predicate HandPresent(hand: Option<seq<Landmark>>)
  {
    hand.Some? && |hand.value| > 0
  }

  /** The hand-shape extractor reads landmarks 0 to 20 of a present hand. */
  predicate HandsReadable(f: Results)
  {
    && (!HandPresent(f.leftHandLandmarks) || |f.leftHandLandmarks.value| >= 21)
    && (!HandPresent(f.rightHandLandmarks) || |f.rightHandLandmarks.value| >= 21)
  }

  // ---- pose ----------------------------------------------------------------

  /** `extractPoseData`. */
  function ExtractPose(f: Results): (r: Option<Pose>)
    requires PoseReadable(f)
    ensures r.None? <==> f.poseLandmarks.None?
    ensures r.Some? ==> r.value.Valid()
  {
    if f.poseLandmarks.None? then None
    else
      var lm := f.poseLandmarks.value;
      var leftShoulder := lm[11];
      var rightShoulder := lm[12];
      var shoulderOpenness := Min(Abs(rightShoulder.x - leftShoulder.x) * 2.0, 1.0);
      var nose := lm[0];
      var hipZ := (lm[23].z + lm[24].z) / 2.0;
      var leanAngle := Clamp(-1.0, 1.0, (hipZ - nose.z) * 5.0);
      var stability := Max(0.0, 1.0 - Abs(leftShoulder.y - rightShoulder.y) * 5.0);
      Some(Pose(shoulderOpenness, leanAngle, stability))
  }

  // ---- gesture -------------------------------------------------------------

  function Wrist(hand: seq<Landmark>): Point
    requires |hand| > 0
  {
    Point(hand[0].x, hand[0].y)
  }

  /** Movement of one hand since its previous detection, and its new last position.
      A hand seen for the first time moves 0; an absent hand forgets its position. */
  function TrackHand(hand: Option<seq<Landmark>>, last: Option<Point>, root: Root): (r: (real, Option<Point>))
    ensures 0.0 <= r.0 <= 1.0
    ensures last.None? ==> r.0 == 0.0
    ensures HandPresent(hand) ==> r.1 == Some(Wrist(hand.value))
    ensures !HandPresent(hand) ==> r == (0.0, None)
  {
    if HandPresent(hand) then
      var wrist := Wrist(hand.value);
      var movement :=
        if last.None? then 0.0
        else
          var dx := wrist.x - last.value.x;
          var dy := wrist.y - last.value.y;
          Min(root(dx * dx + dy * dy) * 10.0, 1.0);
      (movement, Some(wrist))
    else (0.0, None)
  }

  /** `extractGestureData`: always returns a record. */
  function ExtractGesture(f: Results, s: NormalizerState, root: Root): (r: (Option<Gesture>, NormalizerState))
    ensures r.0.Some? && r.0.value.Valid()
    ensures r.1.lastBodyCenter == s.lastBodyCenter && r.1.lastPitchValues == s.lastPitchValues
    ensures r.1.lastLeftHandPos.Some? <==> HandPresent(f.leftHandLandmarks)
    ensures r.1.lastRightHandPos.Some? <==> HandPresent(f.rightHandLandmarks)
    ensures s.lastLeftHandPos.None? ==> r.0.value.leftHandMovement == 0.0
    ensures s.lastRightHandPos.None? ==> r.0.value.rightHandMovement == 0.0
  {
    var (leftMovement, lastLeft) := TrackHand(f.leftHandLandmarks, s.lastLeftHandPos, root);
    var (rightMovement, lastRight) := TrackHand(f.rightHandLandmarks, s.lastRightHandPos, root);
    var gestureFrequency := (leftMovement + rightMovement) / 2.0;
    (Some(Gesture(leftMovement, rightMovement, gestureFrequency)),
     s.(lastLeftHandPos := lastLeft, lastRightHandPos := lastRight))
  }

  /** A hand present, then missing for one frame, then present again moves 0 on the
      third frame: no movement is synthesised across a detection gap. */
  lemma DetectionGapGivesNoMovement(s: NormalizerState, f1: Results, f2: Results, f3: Results, root: Root)
    requires !HandPresent(f2.leftHandLandmarks)
    ensures
      var s1 := ExtractGesture(f1, s, root).1;
      var s2 := ExtractGesture(f2, s1, root).1;
      ExtractGesture(f3, s2, root).0.value.leftHandMovement == 0.0
  {
  }

  // ---- head pose -----------------------------------------------------------

  /** Appends a pitch sample, dropping the oldest beyond ten. */
  function PushPitch(h: seq<real>, p: real): (h': seq<real>)
    ensures |h'| > 0 && h'[|h'| - 1] == p
    ensures |h| < PitchHistoryLength ==> h' == h + [p]
    ensures |h| >= PitchHistoryLength ==> h' == h[1..] + [p]
  {
    var pushed := h + [p];
    if |pushed| > PitchHistoryLength then pushed[1..] else pushed
  }

  /** The pitch history after a run of samples, oldest first. */
  function PushAll(h: seq<real>, ps: seq<real>): seq<real>
  {
    if |ps| == 0 then h else PushPitch(PushAll(h, ps[..|ps| - 1]), ps[|ps| - 1])
  }

  /** The history is a FIFO: from empty, it holds the last (up to) ten samples. */
  lemma {:induction false} HistoryKeepsLastTen(ps: seq<real>)
    ensures |PushAll([], ps)| == if |ps| < PitchHistoryLength then |ps| else PitchHistoryLength
    ensures PushAll([], ps) == ps[|ps| - |PushAll([], ps)|..]
  {
    if |ps| > 0 {
      var init := ps[..|ps| - 1];
      var p := ps[|ps| - 1];
      HistoryKeepsLastTen(init);
      var h := PushAll([], init);
      assert PushAll([], ps) == PushPitch(h, p);
      var k := |init| - |h|;
      SuffixStep(ps, k);
      if |h| >= PitchHistoryLength {
        SuffixStep(ps, k + 1);
        assert h[1..] == init[k + 1..];
      }
    }
  }

  /** A suffix of all but the last sample, extended by the last sample. */
  lemma SuffixStep(ps: seq<real>, k: nat)
    requires k < |ps|
    ensures ps[..|ps| - 1][k..] + [ps[|ps| - 1]] == ps[k..]
  {
  }

  /** `isNodding`: at least five samples, and the newest differs from the fifth-newest by more than 0.3. */
  predicate Nodding(h: seq<real>): (b: bool)
    ensures |h| < NoddingLag ==> !b
    ensures b ==> h[|h| - 1] != h[|h| - NoddingLag]
  {
    |h| >= NoddingLag && Abs(h[|h| - 1] - h[|h| - NoddingLag]) > NoddingThreshold
  }

  /** From the initial state, the first four face frames never report nodding. */
  lemma FirstFourSamplesNeverNod(ps: seq<real>)
    requires 0 < |ps| < NoddingLag
    ensures !Nodding(PushAll([], ps))
  {
    HistoryKeepsLastTen(ps);
  }

  /** `extractHeadPoseData`. */
  function ExtractHeadPose(f: Results, s: NormalizerState): (r: (Option<HeadPose>, NormalizerState))
    requires HeadPoseReadable(f)
    ensures !FacePresent(f) ==> r.0.None? && r.1 == s
    ensures FacePresent(f) ==>
      && r.0.Some? && r.0.value.Valid()
      && r.1 == s.(lastPitchValues := PushPitch(s.lastPitchValues, r.0.value.pitch))
      && (r.0.value.isNodding <==> Nodding(r.1.lastPitchValues))
    ensures s.Valid() ==> r.1.Valid()
  {
    if !FacePresent(f) then (None, s)
    else
      var lm := f.faceLandmarks.value;
      var noseTip := lm[4];
      var foreHead := lm[10];
      var leftEar := lm[234];
      var rightEar := lm[454];
      var pitch := Clamp(-1.0, 1.0, (noseTip.y - foreHead.y) * 5.0 - 0.5);
      var earCenter := (leftEar.x + rightEar.x) / 2.0;
      var yaw := Clamp(-1.0, 1.0, (noseTip.x - earCenter) * 10.0);
      var roll := Clamp(-1.0, 1.0, (leftEar.y - rightEar.y) * 5.0);
      var history := PushPitch(s.lastPitchValues, pitch);
      (Some(HeadPose(pitch, yaw, roll, Nodding(history))), s.(lastPitchValues := history))
  }

  // ---- gaze ----------------------------------------------------------------

  /** Both iris centres (landmarks 468 and 473) are defined. */
  predicate IrisPresent(lm: seq<Landmark>)
  {
    |lm| > 473
  }

  /** `extractGazeData`. */
  function ExtractGaze(f: Results): (r: Option<Gaze>)
    requires GazeReadable(f)
    ensures r.None? <==> !FacePresent(f)
    ensures r.Some? ==> r.value.Valid()
    ensures r.Some? ==>
      (r.value.lookingAtCamera <==>
        Abs(r.value.gazeX) < 0.3 && Abs(r.value.gazeY) < 0.3 && r.value.leftOpenness > 0.3)
    ensures r.Some? && !IrisPresent(f.faceLandmarks.value) ==> r.value.gazeX == 0.0 && r.value.gazeY == 0.0
  {
    if !FacePresent(f) then None
    else
      var lm := f.faceLandmarks.value;
      var leftOpenness := Min(Abs(lm[159].y - lm[145].y) * 20.0, 1.0);
      var rightOpenness := Min(Abs(lm[386].y - lm[374].y) * 20.0, 1.0);
      var leftCenter := Point((lm[133].x + lm[33].x) / 2.0, (lm[159].y + lm[145].y) / 2.0);
      var rightCenter := Point((lm[362].x + lm[263].x) / 2.0, (lm[386].y + lm[374].y) / 2.0);
      var (gazeX, gazeY) :=
        if IrisPresent(lm) then
          var leftIris := lm[468];
          var rightIris := lm[473];
          var leftGazeX := (leftIris.x - leftCenter.x) * 10.0;
          var leftGazeY := (leftIris.y - leftCenter.y) * 10.0;
          var rightGazeX := (rightIris.x - rightCenter.x) * 10.0;
          var rightGazeY := (rightIris.y - rightCenter.y) * 10.0;
          (Clamp(-1.0, 1.0, (leftGazeX + rightGazeX) / 2.0), Clamp(-1.0, 1.0, (leftGazeY + rightGazeY) / 2.0))
        else (0.0, 0.0);
      var lookingAtCamera := Abs(gazeX) < 0.3 && Abs(gazeY) < 0.3 && leftOpenness > 0.3;
      Some(Gaze(lookingAtCamera, gazeX, gazeY, leftOpenness, rightOpenness))
  }

  // ---- hand shape ----------------------------------------------------------

  /** `isFingerExtended`: the tip is above the middle joint, which is above the base joint
      (image y grows downward). */
  predicate FingerExtended(lm: seq<Landmark>, tip: nat, pip: nat, mcp: nat): (b: bool)
    requires tip < |lm| && pip < |lm| && mcp < |lm|
    ensures b ==> lm[tip].y < lm[mcp].y
    ensures lm[tip].y >= lm[pip].y ==> !b
  {
    lm[tip].y < lm[pip].y && lm[pip].y < lm[mcp].y
  }

  /** Extension of thumb, index, middle, ring and pinky, in that order. */
  function FingerStates(lm: seq<Landmark>): (fs: seq<bool>)
    requires |lm| >= 21
    ensures |fs| == 5
  {
    [FingerExtended(lm, 4, 3, 2), FingerExtended(lm, 8, 6, 5), FingerExtended(lm, 12, 10, 9),
     FingerExtended(lm, 16, 14, 13), FingerExtended(lm, 20, 18, 17)]
  }

  /** Number of `true` entries. */
  function CountTrue(bs: seq<bool>): (n: nat)
    ensures n <= |bs|
  {
    if |bs| == 0 then 0 else CountTrue(bs[..|bs| - 1]) + (if bs[|bs| - 1] then 1 else 0)
  }

  lemma CountTrueOfFive(bs: seq<bool>)
    requires |bs| == 5
    ensures CountTrue(bs) ==
      (if bs[0] then 1 else 0) + (if bs[1] then 1 else 0) + (if bs[2] then 1 else 0)
      + (if bs[3] then 1 else 0) + (if bs[4] then 1 else 0)
  {
    var b4, b3, b2, b1 := bs[..4], bs[..3], bs[..2], bs[..1];
    assert b4[..3] == b3 && b3[..2] == b2 && b2[..1] == b1 && b1[..0] == [];
    assert CountTrue(b1) == (if bs[0] then 1 else 0);
    assert CountTrue(b2) == CountTrue(b1) + (if bs[1] then 1 else 0);
    assert CountTrue(b3) == CountTrue(b2) + (if bs[2] then 1 else 0);
    assert CountTrue(b4) == CountTrue(b3) + (if bs[3] then 1 else 0);
  }

  /** What `analyzeHandShape` guarantees of its record. */
  predicate ShapeConsistent(h: HandShape)
  {
    && h.fingerCount <= 5
    && (h.isOpen <==> h.fingerCount >= 4)
    && (h.isFist <==> h.fingerCount <= 1)
    && (h.isThumbUp ==> h.fingerCount == 1)
    && (h.isPeace ==> 2 <= h.fingerCount <= 3)
    && (h.isPointing ==> 1 <= h.fingerCount <= 2)
    && !(h.isPeace && h.isPointing) && !(h.isPeace && h.isThumbUp) && !(h.isPointing && h.isThumbUp)
  }

  /** `analyzeHandShape`. */
  function AnalyzeHandShape(lm: seq<Landmark>): (h: HandShape)
    requires |lm| >= 21
    ensures h.fingerCount == CountTrue(FingerStates(lm))
    ensures ShapeConsistent(h)
    ensures var fs := FingerStates(lm);
      && (h.isThumbUp <==> fs == [true, false, false, false, false])
      && (h.isPeace <==> fs[1] && fs[2] && !fs[3] && !fs[4])
      && (h.isPointing <==> fs[1] && !fs[2] && !fs[3] && !fs[4])
  {
    var thumb := FingerExtended(lm, 4, 3, 2);
    var index := FingerExtended(lm, 8, 6, 5);
    var middle := FingerExtended(lm, 12, 10, 9);
    var ring := FingerExtended(lm, 16, 14, 13);
    var pinky := FingerExtended(lm, 20, 18, 17);
    var fingerCount :=
      (if thumb then 1 else 0) + (if index then 1 else 0) + (if middle then 1 else 0)
      + (if ring then 1 else 0) + (if pinky then 1 else 0);
    var fs := FingerStates(lm);
    CountTrueOfFive(fs);
    HandShape(
      fingerCount >= 4,
      fingerCount <= 1,
      index && middle && !ring && !pinky,
      index && !middle && !ring && !pinky,
      thumb && !index && !middle && !ring && !pinky,
      fingerCount)
  }

  /** `extractHandShapeData`: a record for each present hand. */
  function ExtractHandShape(f: Results): (r: HandShapeData)
    requires HandsReadable(f)
    ensures r.left.Some? <==> HandPresent(f.leftHandLandmarks)
    ensures r.right.Some? <==> HandPresent(f.rightHandLandmarks)
    ensures r.left.Some? ==> ShapeConsistent(r.left.value)
    ensures r.right.Some? ==> ShapeConsistent(r.right.value)
    ensures r.left.Some? ==> r.left.value == AnalyzeHandShape(f.leftHandLandmarks.value)
    ensures r.right.Some? ==> r.right.value == AnalyzeHandShape(f.rightHandLandmarks.value)
  {
    HandShapeData(
      if HandPresent(f.leftHandLandmarks) then Some(AnalyzeHandShape(f.leftHandLandmarks.value)) else None,
      if HandPresent(f.rightHandLandmarks) then Some(AnalyzeHandShape(f.rightHandLandmarks.value)) else None)
  }

  // ---- body movement -------------------------------------------------------

  function ShoulderCenter(lm: seq<Landmark>): Point
    requires |lm| >= 25
  {
    Point((lm[11].x + lm[12].x) / 2.0, (lm[11].y + lm[12].y) / 2.0)
  }

  /** `extractBodyMovementData`. The forward lean compares the nose's depth with the hips'
      vertical centre, as the source does. */
  function ExtractBodyMovement(f: Results, s: NormalizerState, root: Root): (r: (Option<BodyMovement>, NormalizerState))
    requires PoseReadable(f)
    ensures f.poseLandmarks.None? ==> r.0.None? && r.1 == s
    ensures f.poseLandmarks.Some? ==>
      && r.0.Some? && r.0.value.Valid()
      && r.1 == s.(lastBodyCenter := Some(ShoulderCenter(f.poseLandmarks.value)))
      && (s.lastBodyCenter.None? ==> r.0.value.bodySway == 0.0)
  {
    if f.poseLandmarks.None? then (None, s)
    else
      var lm := f.poseLandmarks.value;
      var leftArmRaised := Clamp(0.0, 1.0, (lm[11].y - lm[15].y) * 3.0);
      var rightArmRaised := Clamp(0.0, 1.0, (lm[12].y - lm[16].y) * 3.0);
      var center := ShoulderCenter(lm);
      var hipCenter := Point((lm[23].x + lm[24].x) / 2.0, (lm[23].y + lm[24].y) / 2.0);
      var lateral := Clamp(-1.0, 1.0, (center.x - hipCenter.x) * 10.0);
      var forward := Clamp(-1.0, 1.0, (lm[0].z - hipCenter.y) * 5.0);
      var bodySway :=
        if s.lastBodyCenter.None? then 0.0
        else
          var dx := center.x - s.lastBodyCenter.value.x;
          var dy := center.y - s.lastBodyCenter.value.y;
          Min(root(dx * dx + dy * dy) * 20.0, 1.0);
      (Some(BodyMovement(leftArmRaised, rightArmRaised, lateral, forward, bodySway)),
       s.(lastBodyCenter := Some(center)))
  }

  // ---- one frame -----------------------------------------------------------

  datatype FrameFeatures = FrameFeatures(
    pose: Option<Pose>,
    gesture: Option<Gesture>,
    headPose: Option<HeadPose>,
    gaze: Option<Gaze>,
    handShape: HandShapeData,
    bodyMovement: Option<BodyMovement>)

  predicate Readable(f: Results)
  {
    PoseReadable(f) && HeadPoseReadable(f) && GazeReadable(f) && HandsReadable(f)
  }

  /** All six extractors on one frame, in the order the results callback runs them,
      threading the rolling state through the stateful ones. */
  function ExtractAll(f: Results, s: NormalizerState, root: Root): (r: (FrameFeatures, NormalizerState))
    requires Readable(f)
    ensures r.0.pose.Some? ==> r.0.pose.value.Valid()
    ensures r.0.gesture.Some? && r.0.gesture.value.Valid()
    ensures r.0.headPose.Some? ==> r.0.headPose.value.Valid()
    ensures r.0.gaze.Some? ==> r.0.gaze.value.Valid()
    ensures r.0.bodyMovement.Some? ==> r.0.bodyMovement.value.Valid()
    ensures s.Valid() ==> r.1.Valid()
  {
    var pose := ExtractPose(f);
    var (gesture, s1) := ExtractGesture(f, s, root);
    var (headPose, s2) := ExtractHeadPose(f, s1);
    var gaze := ExtractGaze(f);
    var handShape := ExtractHandShape(f);
    var (bodyMovement, s3) := ExtractBodyMovement(f, s2, root);
    (FrameFeatures(pose, gesture, headPose, gaze, handShape, bodyMovement), s3)
  }

  // ---- what the hook publishes ---------------------------------------------

  /** The six `current…` values `useMediaPipe` exposes: what its results callback last
      stored, each null until results first arrive. */
  datatype Published = Published(
    pose: Option<Pose>,
    gesture: Option<Gesture>,
    headPose: Option<HeadPose>,
    gaze: Option<Gaze>,
    handShape: Option<HandShapeData>,
    bodyMovement: Option<BodyMovement>)

  /** The hook's initial state. */
  const NothingPublished: Published := Published(None, None, None, None, None, None)

  /** The results callback stores all six extractions of one frame. */
  function Publish(ff: FrameFeatures): (d: Published)
    ensures d != NothingPublished && d.handShape.Some?
  {
    Published(ff.pose, ff.gesture, ff.headPose, ff.gaze, Some(ff.handShape), ff.bodyMovement)
  }
}

=== FILE: numeric.dfy ===
/** Real arithmetic used by the feature extractors and the scoring engine:
    JavaScript's `Math.min`, `Math.max`, `Math.abs`, `Math.round`, and the
    `reduce((sum, x) => sum + x, 0)` / `length` means of the source. */
module Numeric {

  function Min(a: real, b: real): (r: real)
    ensures r <= a && r <= b
    ensures r == a || r == b
  {
    if a <= b then a else b
  }

  function Max(a: real, b: real): (r: real)
    ensures a <= r && b <= r
    ensures r == a || r == b
  {
    if a <= b then b else a
  }

  /** `Math.max(lo, Math.min(hi, x))`: min-max saturation into [lo, hi]. */
  function Clamp(lo: real, hi: real, x: real): (r: real)
    requires lo <= hi
    ensures lo <= r <= hi
    ensures lo <= x <= hi ==> r == x
    ensures x < lo ==> r == lo
    ensures hi < x ==> r == hi
  {
    Max(lo, Min(hi, x))
  }

  function Abs(x: real): (r: real)
    ensures 0.0 <= r
    ensures r == x || r == -x
  {
    if x < 0.0 then -x else x
  }

  /** `Math.round`: the nearest integer, halves rounded upward. */
  function Round(x: real): (n: int)
    ensures n as real - 0.5 <= x < n as real + 0.5
  {
    (x + 0.5).Floor
  }

  lemma RoundWithin(x: real, lo: int, hi: int)
    requires lo as real <= x <= hi as real
    ensures lo <= Round(x) <= hi
  {
  }

  lemma RoundOfInteger(n: int)
    ensures Round(n as real) == n
  {
  }

  /** Left-to-right sum, as `reduce((sum, x) => sum + x, 0)` computes it. */
  function Sum(xs: seq<real>): real
  {
    if |xs| == 0 then 0.0 else Sum(xs[..|xs| - 1]) + xs[|xs| - 1]
  }

  /** Arithmetic mean of a non-empty sequence (`sum / length`). */
  function Mean(xs: seq<real>): real
    requires |xs| > 0
  {
    Sum(xs) / |xs| as real
  }

  /** Every element within [lo, hi] bounds the sum by lo·n and hi·n. */
  lemma {:induction false} SumWithin(xs: seq<real>, lo: real, hi: real)
    requires forall i :: 0 <= i < |xs| ==> lo <= xs[i] <= hi
    ensures lo * |xs| as real <= Sum(xs) <= hi * |xs| as real
  {
    if |xs| > 0 {
      var init := xs[..|xs| - 1];
      assert forall i :: 0 <= i < |init| ==> init[i] == xs[i];
      SumWithin(init, lo, hi);
    }
  }

  /** A mean lies between the bounds of its elements. */
  lemma MeanWithin(xs: seq<real>, lo: real, hi: real)
    requires |xs| > 0
    requires forall i :: 0 <= i < |xs| ==> lo <= xs[i] <= hi
    ensures lo <= Mean(xs) <= hi
  {
    SumWithin(xs, lo, hi);
    var n := |xs| as real;
    assert lo * n <= Sum(xs) <= hi * n;
    assert Sum(xs) / n >= lo by {
      assert Sum(xs) >= lo * n;
    }
    assert Sum(xs) / n <= hi by {
      assert Sum(xs) <= hi * n;
    }
  }

  /** The mean of n copies of c is c. */
  lemma {:induction false} SumOfConstant(xs: seq<real>, c: real)
    requires forall i :: 0 <= i < |xs| ==> xs[i] == c
    ensures Sum(xs) == c * |xs| as real
  {
    if |xs| > 0 {
      var init := xs[..|xs| - 1];
      assert forall i :: 0 <= i < |init| ==> init[i] == xs[i];
      SumOfConstant(init, c);
    }
  }

  lemma MeanOfConstant(xs: seq<real>, c: real)
    requires |xs| > 0
    requires forall i :: 0 <= i < |xs| ==> xs[i] == c
    ensures Mean(xs) == c
  {
    SumOfConstant(xs, c);
  }

  /** Dividing by a positive number keeps the order. */
  lemma DivideMonotone(a: real, b: real, n: real)
    requires a <= b && 0.0 < n
    ensures a / n <= b / n
  {
    assert b / n - a / n == (b - a) / n;
  }

  /** Multiplying by a positive number keeps the order. */
  lemma MultiplyMonotone(a: real, b: real, d: real)
    requires a <= b && 0.0 < d
    ensures a * d <= b * d
  {
    assert b * d - a * d == (b - a) * d;
  }

  /** Multiplying by a positive number keeps a strict order. */
  lemma MultiplyStrictMonotone(a: real, b: real, d: real)
    requires a < b && 0.0 < d
    ensures a * d < b * d
  {
    assert b * d - a * d == (b - a) * d;
  }
}

=== FILE: result_display.dfy ===
/** The colour helpers of the result card: parsing a `#rrggbb` colour and blending it
    towards white or black. */
module ResultDisplay {
  import opened Numeric

  datatype Rgb = Rgb(r: int, g: int, b: int)
  {
    predicate InByteRange()
    {
      0 <= r <= 255 && 0 <= g <= 255 && 0 <= b <= 255
    }
  }

  const Black: Rgb := Rgb(0, 0, 0)

  /** `[a-f\d]` under the case-insensitive flag. */
  predicate IsHexDigit(c: char)
  {
    '0' <= c <= '9' || 'a' <= c <= 'f' || 'A' <= c <= 'F'
  }

  function HexValue(c: char): (v: nat)
    requires IsHexDigit(c)
    ensures v < 16
  {
    if '0' <= c <= '9' then c as int - '0' as int
    else if 'a' <= c <= 'f' then c as int - 'a' as int + 10
    else c as int - 'A' as int + 10
  }

  /** The lower-case hex digit of `d`. */
  function HexChar(d: nat): (c: char)
    requires d < 16
    ensures IsHexDigit(c) && HexValue(c) == d
    ensures !('A' <= c <= 'Z')
  {
    if d < 10 then ('0' as int + d) as char else ('a' as int + d - 10) as char
  }

  predicate SixHex(s: string)
  {
    |s| == 6 && forall i :: 0 <= i < 6 ==> IsHexDigit(s[i])
  }

  /** The digits the pattern `^#?([a-f\d]{2}){3}$` captures, if it matches. */
  predicate Matches(hex: string)
  {
    SixHex(hex) || (|hex| == 7 && hex[0] == '#' && SixHex(hex[1..]))
  }

  function Captured(hex: string): (d: string)
    requires Matches(hex)
    ensures SixHex(d)
  {
    if SixHex(hex) then hex else hex[1..]
  }

  /** `parseInt(pair, 16)` for a two-digit capture. */
  function PairValue(hi: char, lo: char): (v: int)
    requires IsHexDigit(hi) && IsHexDigit(lo)
    ensures 0 <= v <= 255
  {
    16 * HexValue(hi) + HexValue(lo)
  }

  /** `hexToRgb`: the three digit pairs in base 16, or black when the pattern fails. */
  function HexToRgb(hex: string): (c: Rgb)
    ensures c.InByteRange()
    ensures !Matches(hex) ==> c == Black
    ensures Matches(hex) ==> var d := Captured(hex);
      c == Rgb(PairValue(d[0], d[1]), PairValue(d[2], d[3]), PairValue(d[4], d[5]))
  {
    if Matches(hex) then
      var d := Captured(hex);
      Rgb(PairValue(d[0], d[1]), PairValue(d[2], d[3]), PairValue(d[4], d[5]))
    else Black
  }

  /** Two lower-case digits for a byte. */
  function ByteToHex(v: int): (s: string)
    requires 0 <= v <= 255
    ensures |s| == 2 && IsHexDigit(s[0]) && IsHexDigit(s[1])
  {
    [HexChar(v / 16), HexChar(v % 16)]
  }

  /** The six-digit lower-case spelling of a colour: the partner of `HexToRgb`. */
  function ToHex(c: Rgb): (s: string)
    requires c.InByteRange()
    ensures SixHex(s)
  {
    ByteToHex(c.r) + ByteToHex(c.g) + ByteToHex(c.b)
  }

  lemma ByteRoundTrip(v: int)
    requires 0 <= v <= 255
    ensures PairValue(ByteToHex(v)[0], ByteToHex(v)[1]) == v
  {
  }

  /** Formatting a colour and parsing it back, with or without '#', gives the colour. */
  lemma FormatThenParse(c: Rgb)
    requires c.InByteRange()
    ensures HexToRgb(ToHex(c)) == c
    ensures HexToRgb("#" + ToHex(c)) == c
  {
    var s := ToHex(c);
    ByteRoundTrip(c.r);
    ByteRoundTrip(c.g);
    ByteRoundTrip(c.b);
    assert ("#" + s)[1..] == s;
  }

  function LowerChar(c: char): char
  {
    if 'A' <= c <= 'Z' then (c as int + 32) as char else c
  }

  /** ASCII lower-casing, which is all the case-insensitive flag affects here. */
  function Lower(s: string): (t: string)
    ensures |t| == |s| && forall i :: 0 <= i < |s| ==> t[i] == LowerChar(s[i])
  {
    seq(|s|, i requires 0 <= i < |s| => LowerChar(s[i]))
  }

  lemma LowerKeepsDigit(c: char)
    ensures IsHexDigit(LowerChar(c)) <==> IsHexDigit(c)
    ensures IsHexDigit(c) ==> HexValue(LowerChar(c)) == HexValue(c)
    ensures IsHexDigit(c) ==> HexChar(HexValue(c)) == LowerChar(c)
  {
  }

  lemma SixHexOfLower(s: string)
    ensures SixHex(Lower(s)) <==> SixHex(s)
  {
    forall i | 0 <= i < |s| {
      LowerKeepsDigit(s[i]);
    }
  }

  /** A six-digit colour parses back to its own lower-case spelling. */
  lemma ParseThenFormat(s: string)
    requires SixHex(s)
    ensures ToHex(HexToRgb(s)) == Lower(s)
  {
    var c := HexToRgb(s);
    forall i | 0 <= i < 6 {
      LowerKeepsDigit(s[i]);
    }
    PairDigits(s[0], s[1]);
    PairDigits(s[2], s[3]);
    PairDigits(s[4], s[5]);
  }

  lemma PairDigits(hi: char, lo: char)
    requires IsHexDigit(hi) && IsHexDigit(lo)
    ensures ByteToHex(PairValue(hi, lo)) == [LowerChar(hi), LowerChar(lo)]
  {
    LowerKeepsDigit(hi);
    LowerKeepsDigit(lo);
    var v := PairValue(hi, lo);
    assert v / 16 == HexValue(hi) && v % 16 == HexValue(lo);
  }

  /** The leading '#' is optional: with or without it a six-digit colour parses alike. */
  lemma HashIsOptional(s: string)
    requires SixHex(s)
    ensures HexToRgb("#" + s) == HexToRgb(s)
  {
    assert ("#" + s)[1..] == s;
  }

  /** Upper- and lower-case spellings parse alike, whatever the string. */
  lemma CaseInsensitive(s: string)
    ensures HexToRgb(Lower(s)) == HexToRgb(s)
  {
    var t := Lower(s);
    SixHexOfLower(s);
    if |s| == 7 {
      assert t[1..] == Lower(s[1..]);
      SixHexOfLower(s[1..]);
    }
    if Matches(s) {
      var d := Captured(s);
      var e := Captured(t);
      assert e == Lower(d);
      forall i | 0 <= i < 6 {
        LowerKeepsDigit(d[i]);
      }
    }
  }

  /** A channel blended towards white: `intensity` 1 keeps it, 0 gives white. */
  function LightChannel(v: int, intensity: real): (w: int)
    requires 0 <= v <= 255 && 0.0 <= intensity <= 1.0
    ensures v <= w <= 255
    ensures intensity == 1.0 ==> w == v
    ensures intensity == 0.0 ==> w == 255
  {
    var x := v as real + (255 - v) as real * (1.0 - intensity);
    assert v as real <= x <= 255.0 by {
      assert 0.0 <= (255 - v) as real * (1.0 - intensity) <= (255 - v) as real;
    }
    RoundWithin(x, v, 255);
    RoundOfInteger(v);
    RoundOfInteger(255);
    Round(x)
  }

  /** A channel darkened by `factor`: never below 0, never above the original. */
  function DarkerChannel(v: int, factor: real): (w: int)
    requires 0 <= v <= 255 && 0.0 <= factor <= 1.0
    ensures 0 <= w <= v
    ensures factor == 0.0 ==> w == v
  {
    var x := v as real * (1.0 - factor);
    assert 0.0 <= x <= v as real by {
      var t := 1.0 - factor;
      assert 0.0 <= t <= 1.0;
      assert v as real * t <= v as real * 1.0;
      assert 0.0 <= v as real * t;
    }
    RoundWithin(x, 0, v);
    RoundOfInteger(v);
    Round(x)
  }

  const DefaultIntensity: real := 0.08
  const DefaultFactor: real := 0.2

  /** `getLightColor`, as the three rounded channels. */
  function LightColor(hex: string, intensity: real): (c: Rgb)
    requires 0.0 <= intensity <= 1.0
    ensures c.InByteRange()
    ensures var o := HexToRgb(hex); o.r <= c.r && o.g <= c.g && o.b <= c.b
    ensures intensity == 1.0 ==> c == HexToRgb(hex)
    ensures intensity == 0.0 ==> c == Rgb(255, 255, 255)
  {
    var o := HexToRgb(hex);
    Rgb(LightChannel(o.r, intensity), LightChannel(o.g, intensity), LightChannel(o.b, intensity))
  }

  /** `getDarkerColor`, as the three rounded channels. */
  function DarkerColor(hex: string, factor: real): (c: Rgb)
    requires 0.0 <= factor <= 1.0
    ensures c.InByteRange()
    ensures var o := HexToRgb(hex); c.r <= o.r && c.g <= o.g && c.b <= o.b
    ensures factor == 0.0 ==> c == HexToRgb(hex)
  {
    var o := HexToRgb(hex);
    Rgb(DarkerChannel(o.r, factor), DarkerChannel(o.g, factor), DarkerChannel(o.b, factor))
  }

  /** An unparsable colour lightens to a grey and darkens to black. */
  lemma UnparsableColour(hex: string, intensity: real, factor: real)
    requires !Matches(hex) && 0.0 <= intensity <= 1.0 && 0.0 <= factor <= 1.0
    ensures DarkerColor(hex, factor) == Black
    ensures var w := LightChannel(0, intensity); LightColor(hex, intensity) == Rgb(w, w, w)
  {
  }
}

=== FILE: score_display.dfy ===
/** The live panel's hand-shape text. */
module ScoreDisplay {
  import opened Common
  import opened Strings
  import opened AnalysisTypes
  import opened MediaPipe

  const NoHand: string := "-"
  const ThumbUpLabel: string := "サムズアップ"
  const PeaceLabel: string := "ピース"
  const PointingLabel: string := "指さし"
  const FistLabel: string := "グー"
  const OpenLabel: string := "パー"

  /** The text for `n` extended fingers when no shape applies. */
  function CountLabel(n: nat): (text: string)
    ensures |text| >= 2 && text[|text| - 1] == '本'
    ensures forall i :: 0 <= i < |text| - 1 ==> '0' <= text[i] <= '9'
    ensures DecimalValue(text[..|text| - 1]) == n
  {
    var text := NatToString(n) + "本";
    assert text[..|text| - 1] == NatToString(n);
    text
  }

  /** `getHandShapeLabel`: the first flag in the order thumbs-up, peace, pointing, fist,
      open decides the text; with none set it is the finger count. */
  function HandShapeLabel(hand: Option<HandShape>): (text: string)
    ensures hand.None? ==> text == NoHand
    ensures hand.Some? && hand.value.isThumbUp ==> text == ThumbUpLabel
    ensures hand.Some? ==> var h := hand.value;
      && (text == PeaceLabel <==> !h.isThumbUp && h.isPeace)
      && (text == PointingLabel <==> !h.isThumbUp && !h.isPeace && h.isPointing)
      && (text == FistLabel <==> !h.isThumbUp && !h.isPeace && !h.isPointing && h.isFist)
      && (text == OpenLabel <==> !h.isThumbUp && !h.isPeace && !h.isPointing && !h.isFist && h.isOpen)
      && (!h.isThumbUp && !h.isPeace && !h.isPointing && !h.isFist && !h.isOpen ==> text == CountLabel(h.fingerCount))
  {
    match hand
    case None => NoHand
    case Some(h) =>
      if h.isThumbUp then ThumbUpLabel
      else if h.isPeace then PeaceLabel
      else if h.isPointing then PointingLabel
      else if h.isFist then FistLabel
      else if h.isOpen then OpenLabel
      else
        var text := CountLabel(h.fingerCount);
        assert text[|text| - 1] != PeaceLabel[|PeaceLabel| - 1];
        assert text[|text| - 1] != FistLabel[|FistLabel| - 1];
        assert text[|text| - 1] != PointingLabel[|PointingLabel| - 1];
        assert text[|text| - 1] != OpenLabel[|OpenLabel| - 1];
        text
  }

  /** For a shape the classifier can produce, the finger-count text only appears for two
      or three fingers that form neither a peace sign nor a pointing hand. */
  lemma CountLabelOnlyForTwoOrThree(h: HandShape)
    requires ShapeConsistent(h)
    ensures HandShapeLabel(Some(h)) == CountLabel(h.fingerCount) <==>
      2 <= h.fingerCount <= 3 && !h.isPeace && !h.isPointing && !h.isThumbUp
  {
    var count := CountLabel(h.fingerCount);
    assert count[|count| - 1] != ThumbUpLabel[|ThumbUpLabel| - 1];
    assert count[|count| - 1] != PeaceLabel[|PeaceLabel| - 1];
    assert count[|count| - 1] != PointingLabel[|PointingLabel| - 1];
    assert count[|count| - 1] != FistLabel[|FistLabel| - 1];
    assert count[|count| - 1] != OpenLabel[|OpenLabel| - 1];
  }
}

=== FILE: score_engine.dfy ===
/** The scoring engine: aggregations over a sequence of timeline entries. Each score
    looks only at the entries whose relevant sub-record is present. */
module ScoreEngine {
  import opened Common
  import opened Numeric
  import opened AnalysisTypes
  import opened FaceApi

  /** Every entry carries in-range feature values (what the extractors produce). */
  predicate TimelineValid(t: seq<TimelineEntry>)
  {
    forall i :: 0 <= i < |t| ==> t[i].Valid()
  }

  // ---- the filtered series -------------------------------------------------

  /** The expression records of the entries that have one, in timeline order. */
  function ExpressionSeries(t: seq<TimelineEntry>): (xs: seq<Expressions>)
    ensures |xs| <= |t|
  {
    if |t| == 0 then []
    else
      var last := t[|t| - 1];
      ExpressionSeries(t[..|t| - 1]) + (if last.expressions.Some? then [last.expressions.value] else [])
  }

  /** The `gestureFrequency` of the entries that have gesture data, in timeline order. */
  function GestureFrequencies(t: seq<TimelineEntry>): (fs: seq<real>)
    ensures |fs| <= |t|
    ensures TimelineValid(t) ==> forall i :: 0 <= i < |fs| ==> 0.0 <= fs[i] <= 1.0
  {
    if |t| == 0 then []
    else
      var last := t[|t| - 1];
      assert TimelineValid(t) ==> TimelineValid(t[..|t| - 1]);
      GestureFrequencies(t[..|t| - 1]) + (if last.gesture.Some? then [last.gesture.value.gestureFrequency] else [])
  }

  /** The pose records of the entries that have one, in timeline order. */
  function PoseSeries(t: seq<TimelineEntry>): (ps: seq<Pose>)
    ensures |ps| <= |t|
    ensures TimelineValid(t) ==> forall i :: 0 <= i < |ps| ==> ps[i].Valid()
  {
    if |t| == 0 then []
    else
      var last := t[|t| - 1];
      assert TimelineValid(t) ==> TimelineValid(t[..|t| - 1]);
      PoseSeries(t[..|t| - 1]) + (if last.pose.Some? then [last.pose.value] else [])
  }

  function Openness(ps: seq<Pose>): seq<real>
  {
    seq(|ps|, i requires 0 <= i < |ps| => ps[i].shoulderOpenness)
  }

  function Stabilities(ps: seq<Pose>): seq<real>
  {
    seq(|ps|, i requires 0 <= i < |ps| => ps[i].stability)
  }

  function Leans(ps: seq<Pose>): seq<real>
  {
    seq(|ps|, i requires 0 <= i < |ps| => ps[i].leanAngle)
  }

  // ---- expressiveness ------------------------------------------------------

  /** Frame-to-frame change over the happy, sad, angry and surprised channels. */
  function Variation(prev: Expressions, curr: Expressions): (v: real)
    ensures 0.0 <= v
  {
    Abs(curr.happy - prev.happy) + Abs(curr.sad - prev.sad)
    + Abs(curr.angry - prev.angry) + Abs(curr.surprised - prev.surprised)
  }

  /** Sum of the variations between consecutive expression entries. */
  function TotalVariation(xs: seq<Expressions>): (v: real)
    ensures 0.0 <= v
  {
    if |xs| < 2 then 0.0
    else TotalVariation(xs[..|xs| - 1]) + Variation(xs[|xs| - 2], xs[|xs| - 1])
  }

  const NonNeutral: set<Emotion> := {Happy, Sad, Angry, Fearful, Disgusted, Surprised}

  /** The distinct non-neutral dominant emotions of the expression entries after the
      first (the loop collects them from the second entry on). */
  function Diversity(xs: seq<Expressions>): (d: set<Emotion>)
    ensures d <= NonNeutral
    ensures |xs| <= 1 ==> d == {}
  {
    Collect(xs, DominantExpression)
  }

  /** The collecting loop, for any way `dominant` of reading an entry's emotion. */
  function Collect(xs: seq<Expressions>, dominant: Expressions -> Emotion): (d: set<Emotion>)
    ensures d <= NonNeutral
    ensures |xs| <= 1 ==> d == {}
  {
    if |xs| < 2 then {}
    else
      var e := dominant(xs[|xs| - 1]);
      Collect(xs[..|xs| - 1], dominant) + (if e != Neutral then {e} else {})
  }

  /** `calculateExpressiveness`. */
  function Expressiveness(t: seq<TimelineEntry>): (r: real)
    ensures 0.0 <= r <= 100.0
    ensures |ExpressionSeries(t)| <= 1 ==> r == 0.0
    ensures var xs := ExpressionSeries(t); |xs| > 0 ==>
      r == Min(100.0, TotalVariation(xs) / |xs| as real * 200.0 + (|Diversity(xs)| * 10) as real)
  {
    ExpressivenessOfSeries(ExpressionSeries(t))
  }

  /** The average variation scaled by 200, plus 10 per collected emotion, saturated at 100. */
  function ExpressivenessOfSeries(xs: seq<Expressions>): (r: real)
    ensures 0.0 <= r <= 100.0
    ensures |xs| <= 1 ==> r == 0.0
    ensures |xs| > 0 ==>
      r == Min(100.0, TotalVariation(xs) / |xs| as real * 200.0 + (|Diversity(xs)| * 10) as real)
  {
    if |xs| == 0 then 0.0
    else
      var avgVariation := TotalVariation(xs) / |xs| as real;
      var diversityBonus := |Diversity(xs)| * 10;
      Min(100.0, avgVariation * 200.0 + diversityBonus as real)
  }

  /** Of two series of one length collecting the same emotions, the one that varies more
      never scores lower. */
  lemma MoreVariationNeverScoresLower(xs: seq<Expressions>, ys: seq<Expressions>)
    requires |xs| == |ys| && Diversity(xs) == Diversity(ys)
    requires TotalVariation(xs) <= TotalVariation(ys)
    ensures ExpressivenessOfSeries(xs) <= ExpressivenessOfSeries(ys)
  {
    if |xs| > 0 {
      var n := |xs| as real;
      assert TotalVariation(xs) / n <= TotalVariation(ys) / n by {
        DivideMonotone(TotalVariation(xs), TotalVariation(ys), n);
      }
    }
  }

  /** The diversity bonus counts distinct non-neutral emotions: at most 6 × 10 points. */
  lemma {:induction false} DiversityBonusAtMostSixty(xs: seq<Expressions>)
    ensures |Diversity(xs)| * 10 <= 60
  {
    SubsetCardinality(Diversity(xs), NonNeutral);
    NonNeutralHasSix();
  }

  /** The six non-neutral emotions are distinct. */
  lemma NonNeutralHasSix()
    ensures |NonNeutral| == 6
  {
    var s2 := {Happy, Sad};
    var s4 := s2 + {Angry} + {Fearful};
    assert |s4| == 4;
    assert NonNeutral == s4 + {Disgusted} + {Surprised};
  }

  lemma {:induction false} SubsetCardinality<T>(a: set<T>, b: set<T>)
    requires a <= b
    ensures |a| <= |b|
    decreases b
  {
    if a != {} {
      var x :| x in a;
      SubsetCardinality(a - {x}, b - {x});
    }
  }

  lemma {:induction false} ConstantSeriesHasNoVariation(xs: seq<Expressions>, x: Expressions)
    requires forall i :: 0 <= i < |xs| ==> xs[i] == x
    ensures TotalVariation(xs) == 0.0
  {
    if |xs| >= 2 {
      ConstantSeriesHasNoVariation(xs[..|xs| - 1], x);
    }
  }

  /** A face that never changes scores only the diversity bonus of its one dominant
      emotion: 10 when that emotion is not neutral and there are two or more entries. */
  lemma ConstantExpressionsScore(t: seq<TimelineEntry>, x: Expressions)
    requires forall i :: 0 <= i < |t| ==> t[i].expressions.None? || t[i].expressions == Some(x)
    ensures Expressiveness(t) ==
      if |ExpressionSeries(t)| >= 2 && DominantExpression(x) != Neutral then 10.0 else 0.0
  {
    SeriesOfConstant(t, x);
    ConstantSeriesScore(ExpressionSeries(t), x);
  }

  lemma ConstantSeriesScore(xs: seq<Expressions>, x: Expressions)
    requires forall i :: 0 <= i < |xs| ==> xs[i] == x
    ensures ExpressivenessOfSeries(xs) ==
      if |xs| >= 2 && DominantExpression(x) != Neutral then 10.0 else 0.0
  {
    ConstantSeriesHasNoVariation(xs, x);
    DiversitySizeOfConstant(xs, x);
    if |xs| > 0 {
      var avgVariation := TotalVariation(xs) / |xs| as real;
      assert avgVariation == 0.0;
      var bonus := (|Diversity(xs)| * 10) as real;
      assert ExpressivenessOfSeries(xs) == Min(100.0, avgVariation * 200.0 + bonus);
      assert ExpressivenessOfSeries(xs) == bonus;
    }
  }

  lemma DiversitySizeOfConstant(xs: seq<Expressions>, x: Expressions)
    requires forall i :: 0 <= i < |xs| ==> xs[i] == x
    ensures |Diversity(xs)| == if |xs| >= 2 && DominantExpression(x) != Neutral then 1 else 0
  {
    DiversityOfConstant(xs, x);
  }

  /** An emotion is collected exactly when it is non-neutral and dominates some expression
      entry from the second one on. */
  lemma DiversityMembers(xs: seq<Expressions>, e: Emotion)
    ensures e in Diversity(xs) <==> e != Neutral && exists i :: 1 <= i < |xs| && DominantExpression(xs[i]) == e
  {
    CollectMembers(xs, DominantExpression, e);
  }

  /** The same for any way of reading an entry's emotion. */
  lemma CollectMembers(xs: seq<Expressions>, dominant: Expressions -> Emotion, e: Emotion)
    ensures e in Collect(xs, dominant) <==> e != Neutral && exists i :: 1 <= i < |xs| && dominant(xs[i]) == e
  {
    if e in Collect(xs, dominant) {
      var k := CollectWitness(xs, dominant, e);
    } else {
      forall i | 1 <= i < |xs| && dominant(xs[i]) != Neutral
        ensures dominant(xs[i]) != e
      {
        CollectHasDominant(xs, dominant, i);
      }
    }
  }

  /** Every collected emotion is read from some entry from the second one on. */
  lemma {:induction false} CollectWitness(xs: seq<Expressions>, dominant: Expressions -> Emotion, e: Emotion) returns (k: nat)
    requires e in Collect(xs, dominant)
    ensures 1 <= k < |xs| && dominant(xs[k]) == e
  {
    var init := xs[..|xs| - 1];
    if e in Collect(init, dominant) {
      k := CollectWitness(init, dominant, e);
      assert xs[k] == init[k];
    } else {
      k := |xs| - 1;
    }
  }

  /** The non-neutral emotion of every entry from the second one on is collected. */
  lemma {:induction false} CollectHasDominant(xs: seq<Expressions>, dominant: Expressions -> Emotion, k: nat)
    requires 1 <= k < |xs| && dominant(xs[k]) != Neutral
    ensures dominant(xs[k]) in Collect(xs, dominant)
  {
    if k < |xs| - 1 {
      var init := xs[..|xs| - 1];
      assert xs[k] == init[k];
      CollectHasDominant(init, dominant, k);
    }
  }

  lemma DiversityOfConstant(xs: seq<Expressions>, x: Expressions)
    requires forall i :: 0 <= i < |xs| ==> xs[i] == x
    ensures Diversity(xs) ==
      if |xs| >= 2 && DominantExpression(x) != Neutral then {DominantExpression(x)} else {}
  {
    CollectOfConstant(xs, x, DominantExpression);
  }

  /** An unchanging series collects exactly its one emotion, if non-neutral, once it has
      two entries. */
  lemma {:induction false} CollectOfConstant(xs: seq<Expressions>, x: Expressions, dominant: Expressions -> Emotion)
    requires forall i :: 0 <= i < |xs| ==> xs[i] == x
    ensures Collect(xs, dominant) ==
      if |xs| >= 2 && dominant(x) != Neutral then {dominant(x)} else {}
  {
    if |xs| >= 2 {
      CollectOfConstant(xs[..|xs| - 1], x, dominant);
    }
  }

  lemma {:induction false} SeriesOfConstant(t: seq<TimelineEntry>, x: Expressions)
    requires forall i :: 0 <= i < |t| ==> t[i].expressions.None? || t[i].expressions == Some(x)
    ensures forall i :: 0 <= i < |ExpressionSeries(t)| ==> ExpressionSeries(t)[i] == x
  {
    if |t| > 0 {
      SeriesOfConstant(t[..|t| - 1], x);
    }
  }

  // ---- gesture activity and postural openness ------------------------------

  /** `calculateGestureActivity`. */
  function GestureActivity(t: seq<TimelineEntry>): (r: real)
    ensures |GestureFrequencies(t)| == 0 ==> r == 0.0
    ensures |GestureFrequencies(t)| > 0 ==> r == Min(100.0, Mean(GestureFrequencies(t)) * 100.0)
    ensures r <= 100.0
    ensures TimelineValid(t) ==> 0.0 <= r
  {
    GestureActivityOfSeries(GestureFrequencies(t))
  }

  function GestureActivityOfSeries(fs: seq<real>): (r: real)
    ensures |fs| == 0 ==> r == 0.0
    ensures r <= 100.0
    ensures (forall i :: 0 <= i < |fs| ==> 0.0 <= fs[i] <= 1.0) ==> 0.0 <= r
  {
    if |fs| == 0 then 0.0
    else
      assert (forall i :: 0 <= i < |fs| ==> 0.0 <= fs[i] <= 1.0) ==> 0.0 <= Mean(fs) by {
        if forall i :: 0 <= i < |fs| ==> 0.0 <= fs[i] <= 1.0 { MeanWithin(fs, 0.0, 1.0); }
      }
      Min(100.0, Mean(fs) * 100.0)
  }

  /** The forward-lean bonus: 20 × mean lean, only when the mean lean is forward. */
  function LeanBonus(avgLean: real): (b: real)
    ensures 0.0 <= b
    ensures avgLean <= 0.0 ==> b == 0.0
    ensures avgLean > 0.0 ==> b == avgLean * 20.0
  {
    if avgLean > 0.0 then avgLean * 20.0 else 0.0
  }

  /** `calculatePosturalOpenness`. */
  function PosturalOpenness(t: seq<TimelineEntry>): (r: real)
    ensures |PoseSeries(t)| == 0 ==> r == 0.0
    ensures var ps := PoseSeries(t);
      |ps| > 0 ==> r == Min(100.0, Mean(Openness(ps)) * 50.0 + Mean(Stabilities(ps)) * 30.0 + LeanBonus(Mean(Leans(ps))))
    ensures r <= 100.0
    ensures TimelineValid(t) ==> 0.0 <= r
  {
    PosturalOpennessOfSeries(PoseSeries(t))
  }

  function PosturalOpennessOfSeries(ps: seq<Pose>): (r: real)
    ensures |ps| == 0 ==> r == 0.0
    ensures r <= 100.0
    ensures (forall i :: 0 <= i < |ps| ==> ps[i].Valid()) ==> 0.0 <= r
  {
    if |ps| == 0 then 0.0
    else
      var avgOpenness := Mean(Openness(ps));
      var avgStability := Mean(Stabilities(ps));
      var avgLean := Mean(Leans(ps));
      assert (forall i :: 0 <= i < |ps| ==> ps[i].Valid()) ==> 0.0 <= avgOpenness && 0.0 <= avgStability by {
        if forall i :: 0 <= i < |ps| ==> ps[i].Valid() {
          MeanWithin(Openness(ps), 0.0, 1.0);
          MeanWithin(Stabilities(ps), 0.0, 1.0);
        }
      }
      Min(100.0, avgOpenness * 50.0 + avgStability * 30.0 + LeanBonus(avgLean))
  }

  /** `calculateAllScores`: the three detail scores, each rounded with `Math.round`. */
  function CalculateAllScores(t: seq<TimelineEntry>): (s: CommunicationScores)
    ensures 0 <= s.expressiveness <= 100
    ensures s.gestureActivity <= 100 && s.posturalOpenness <= 100
    ensures TimelineValid(t) ==> 0 <= s.gestureActivity && 0 <= s.posturalOpenness
    ensures |ExpressionSeries(t)| <= 1 ==> s.expressiveness == 0
    ensures |GestureFrequencies(t)| == 0 ==> s.gestureActivity == 0
    ensures |PoseSeries(t)| == 0 ==> s.posturalOpenness == 0
    ensures s.expressiveness as real - 0.5 <= Expressiveness(t) < s.expressiveness as real + 0.5
    ensures s.gestureActivity as real - 0.5 <= GestureActivity(t) < s.gestureActivity as real + 0.5
    ensures s.posturalOpenness as real - 0.5 <= PosturalOpenness(t) < s.posturalOpenness as real + 0.5
  {
    CommunicationScores(
      Round(Expressiveness(t)), Round(GestureActivity(t)), Round(PosturalOpenness(t)))
  }

  /** An entry without expression, gesture or pose data leaves all three scores unchanged. */
  lemma EntryWithoutDataKeepsScores(t: seq<TimelineEntry>, e: TimelineEntry)
    requires e.expressions.None? && e.gesture.None? && e.pose.None?
    ensures CalculateAllScores(t + [e]) == CalculateAllScores(t)
  {
    EntriesWithoutDataAreIgnored(t, e);
  }

  /** An entry whose relevant sub-record is absent leaves that score unchanged. */
  lemma EntriesWithoutDataAreIgnored(t: seq<TimelineEntry>, e: TimelineEntry)
    ensures e.expressions.None? ==> Expressiveness(t + [e]) == Expressiveness(t)
    ensures e.gesture.None? ==> GestureActivity(t + [e]) == GestureActivity(t)
    ensures e.pose.None? ==> PosturalOpenness(t + [e]) == PosturalOpenness(t)
  {
    SeriesOfAppend(t, e);
    if e.expressions.None? {
      assert ExpressionSeries(t + [e]) == ExpressionSeries(t);
    }
    if e.gesture.None? {
      assert GestureFrequencies(t + [e]) == GestureFrequencies(t);
    }
    if e.pose.None? {
      assert PoseSeries(t + [e]) == PoseSeries(t);
    }
  }

  /** Appending an entry extends each filtered series by that entry's sub-record, if any. */
  lemma SeriesOfAppend(t: seq<TimelineEntry>, e: TimelineEntry)
    ensures ExpressionSeries(t + [e]) ==
      ExpressionSeries(t) + (if e.expressions.Some? then [e.expressions.value] else [])
    ensures GestureFrequencies(t + [e]) ==
      GestureFrequencies(t) + (if e.gesture.Some? then [e.gesture.value.gestureFrequency] else [])
    ensures PoseSeries(t + [e]) == PoseSeries(t) + (if e.pose.Some? then [e.pose.value] else [])
  {
    assert (t + [e])[..|t|] == t;
  }

  /** An empty timeline scores zero on every axis. */
  lemma EmptyTimelineScoresZero()
    ensures CalculateAllScores([]) == CommunicationScores(0, 0, 0)
  {
  }

  /** Thirty frames of a steady posture (openness 0.5, stability 0.8, forward lean 0.2)
      and no other data score 0.5·50 + 0.8·30 + 0.2·20 = 53 on posture, 0 elsewhere. */
  lemma {:induction false} SteadyPostureScores(t: seq<TimelineEntry>)
    requires |t| > 0
    requires forall i :: 0 <= i < |t| ==>
      && t[i].pose == Some(Pose(0.5, 0.2, 0.8))
      && t[i].gesture.None? && t[i].expressions.None?
    ensures CalculateAllScores(t) == CommunicationScores(0, 0, 53)
  {
    SteadyPostureSeries(t);
    var ps := PoseSeries(t);
    MeanOfConstant(Openness(ps), 0.5);
    MeanOfConstant(Stabilities(ps), 0.8);
    MeanOfConstant(Leans(ps), 0.2);
    assert PosturalOpenness(t) == 53.0;
    NoGestureNoExpression(t);
  }

  lemma {:induction false} SteadyPostureSeries(t: seq<TimelineEntry>)
    requires forall i :: 0 <= i < |t| ==> t[i].pose == Some(Pose(0.5, 0.2, 0.8))
    ensures |PoseSeries(t)| == |t|
    ensures forall i :: 0 <= i < |t| ==> PoseSeries(t)[i] == Pose(0.5, 0.2, 0.8)
  {
    if |t| > 0 {
      SteadyPostureSeries(t[..|t| - 1]);
    }
  }

  lemma {:induction false} NoGestureNoExpression(t: seq<TimelineEntry>)
    requires forall i :: 0 <= i < |t| ==> t[i].gesture.None? && t[i].expressions.None?
    ensures GestureFrequencies(t) == [] && ExpressionSeries(t) == []
  {
    if |t| > 0 {
      NoGestureNoExpression(t[..|t| - 1]);
    }
  }

  /** Gesture activity is 100 × the mean frequency of the entries with gesture data: when
      every such entry moves at the same frequency `c` in [0, 1], the score is 100·c. */
  lemma UniformGestureActivity(t: seq<TimelineEntry>, c: real, k: nat)
    requires 0.0 <= c <= 1.0
    requires forall i :: 0 <= i < |t| ==> t[i].gesture.None? || t[i].gesture.value.gestureFrequency == c
    requires k < |t| && t[k].gesture.Some?
    ensures GestureActivity(t) == 100.0 * c
  {
    UniformFrequencies(t, c, k);
    MeanOfConstant(GestureFrequencies(t), c);
  }

  lemma {:induction false} UniformFrequencies(t: seq<TimelineEntry>, c: real, k: nat)
    requires forall i :: 0 <= i < |t| ==> t[i].gesture.None? || t[i].gesture.value.gestureFrequency == c
    ensures forall i :: 0 <= i < |GestureFrequencies(t)| ==> GestureFrequencies(t)[i] == c
    ensures k < |t| && t[k].gesture.Some? ==> |GestureFrequencies(t)| > 0
  {
    if |t| > 0 {
      UniformFrequencies(t[..|t| - 1], c, k);
    }
  }

  // ---- session summary -----------------------------------------------------

  /** The dominant emotion of each expression entry. */
  function DominantSeries(xs: seq<Expressions>): (ds: seq<Emotion>)
    ensures |ds| == |xs|
    ensures forall i :: 0 <= i < |xs| ==> ds[i] == DominantExpression(xs[i])
  {
    seq(|xs|, i requires 0 <= i < |xs| => DominantExpression(xs[i]))
  }

  /** Number of occurrences of `e` in `ds`. */
  function Count(ds: seq<Emotion>, e: Emotion): (n: nat)
    ensures n <= |ds|
    ensures n == multiset(ds)[e]
  {
    if |ds| == 0 then 0
    else
      assert ds == ds[..|ds| - 1] + [ds[|ds| - 1]];
      Count(ds[..|ds| - 1], e) + (if ds[|ds| - 1] == e then 1 else 0)
  }

  /** The seven counts account for every expression entry exactly once. */
  lemma {:induction false} CountsCoverSeries(ds: seq<Emotion>)
    ensures Count(ds, Neutral) + Count(ds, Happy) + Count(ds, Sad) + Count(ds, Angry)
      + Count(ds, Fearful) + Count(ds, Disgusted) + Count(ds, Surprised) == |ds|
  {
    if |ds| > 0 {
      CountsCoverSeries(ds[..|ds| - 1]);
    }
  }

  const AllEmotions: set<Emotion> := {Neutral, Happy, Sad, Angry, Fearful, Disgusted, Surprised}

  /** `Math.round(count / (total || 1) * 100)`: the share of `count` in `total`, rounded to
      the nearest whole percent. */
  function Percentage(count: nat, total: nat): (p: int)
    requires count <= total
    ensures 0 <= p <= 100
    ensures count == 0 ==> p == 0
    ensures total > 0 ==>
      (p as real - 0.5) * total as real <= 100.0 * count as real < (p as real + 0.5) * total as real
  {
    var denominator := if total == 0 then 1 else total;
    assert 0.0 <= count as real / denominator as real <= 1.0;
    var p := Round(count as real / denominator as real * 100.0);
    ScaledRounding(count as real, denominator as real, p);
    p
  }

  /** Rounding the percentage `c / d · 100` to `p` puts `100·c` within half of `d` from `p·d`. */
  lemma ScaledRounding(c: real, d: real, p: int)
    requires 0.0 < d
    requires p as real - 0.5 <= c / d * 100.0 < p as real + 0.5
    ensures (p as real - 0.5) * d <= 100.0 * c < (p as real + 0.5) * d
  {
    var q := c / d * 100.0;
    assert q * d == 100.0 * c;
    MultiplyMonotone(p as real - 0.5, q, d);
    MultiplyStrictMonotone(q, p as real + 0.5, d);
  }

  /** `emotionDistribution`: each emotion's share of the expression entries, in percent. */
  function Distribution(ds: seq<Emotion>): (m: map<Emotion, int>)
    ensures m.Keys == AllEmotions
    ensures forall e :: e in m ==> 0 <= m[e] <= 100
    ensures ds == [] ==> forall e :: e in m ==> m[e] == 0
    ensures forall e :: e in m ==> m[e] == Percentage(Count(ds, e), |ds|)
  {
    map e | e in AllEmotions :: Percentage(Count(ds, e), |ds|)
  }

  /** `dominantEmotion`: the emotion a stable descending sort of the counts puts first. */
  function DominantOfCounts(ds: seq<Emotion>): (d: Emotion)
    ensures forall e :: Count(ds, e) <= Count(ds, d)
    ensures forall e :: Rank(e) < Rank(d) ==> Count(ds, e) < Count(ds, d)
    ensures ds == [] ==> d == Neutral
  {
    var counts := (e: Emotion) => Count(ds, e) as real;
    var d := StableArgMax(counts);
    assert IsStableMax(counts, d);
    assert ds == [] ==> Rank(d) == 0 by {
      if ds == [] {
        assert forall e :: counts(e) == 0.0;
      }
    }
    d
  }

  /** The mean of a series, or 0 for an empty one. */
  function MeanOrZero(xs: seq<real>): (m: real)
    ensures xs == [] ==> m == 0.0
    ensures |xs| > 0 ==> m * |xs| as real == Sum(xs)
    ensures (forall i :: 0 <= i < |xs| ==> 0.0 <= xs[i] <= 1.0) ==> 0.0 <= m <= 1.0
  {
    if |xs| > 0 then
      assert (forall i :: 0 <= i < |xs| ==> 0.0 <= xs[i] <= 1.0) ==> 0.0 <= Mean(xs) <= 1.0 by {
        if forall i :: 0 <= i < |xs| ==> 0.0 <= xs[i] <= 1.0 { MeanWithin(xs, 0.0, 1.0); }
      }
      Mean(xs)
    else 0.0
  }

  /** `generateSummary`. */
  function GenerateSummary(t: seq<TimelineEntry>): (s: SessionSummary)
    ensures s.emotionDistribution.Keys == AllEmotions
    ensures forall e :: e in s.emotionDistribution ==> 0 <= s.emotionDistribution[e] <= 100
    ensures var ds := DominantSeries(ExpressionSeries(t));
      && (forall e :: Count(ds, e) <= Count(ds, s.dominantEmotion))
      && (forall e :: Rank(e) < Rank(s.dominantEmotion) ==> Count(ds, e) < Count(ds, s.dominantEmotion))
    ensures ExpressionSeries(t) == [] ==>
      && s.dominantEmotion == Neutral
      && forall e :: e in s.emotionDistribution ==> s.emotionDistribution[e] == 0
    ensures GestureFrequencies(t) == [] ==> s.averageGestureFrequency == 0.0
    ensures PoseSeries(t) == [] ==> s.postureStability == 0.0
    ensures TimelineValid(t) ==>
      0.0 <= s.averageGestureFrequency <= 1.0 && 0.0 <= s.postureStability <= 1.0
    ensures s.emotionDistribution == Distribution(DominantSeries(ExpressionSeries(t)))
    ensures s.averageGestureFrequency == MeanOrZero(GestureFrequencies(t))
    ensures s.postureStability == MeanOrZero(Stabilities(PoseSeries(t)))
  {
    var ds := DominantSeries(ExpressionSeries(t));
    var ps := PoseSeries(t);
    assert TimelineValid(t) ==> forall i :: 0 <= i < |ps| ==> 0.0 <= Stabilities(ps)[i] <= 1.0;
    SessionSummary(
      DominantOfCounts(ds), Distribution(ds),
      MeanOrZero(GestureFrequencies(t)), MeanOrZero(Stabilities(ps)))
  }
}

=== FILE: strings.dfy ===
/** String helpers with JavaScript's meaning: `String.prototype.trim`,
    `Array.prototype.join`, and the decimal rendering of a count in a template literal. */
module Strings {

  /** The characters `trim` removes: ECMAScript WhiteSpace and LineTerminator. */
  predicate IsJsWhitespace(c: char)
  {
    || c == '\t' || c == '\n' || c == '\U{B}' || c == '\U{C}' || c == '\r' || c == ' '
    || c == '\U{A0}' || c == '\U{1680}' || ('\U{2000}' <= c <= '\U{200A}')
    || c == '\U{2028}' || c == '\U{2029}' || c == '\U{202F}' || c == '\U{205F}'
    || c == '\U{3000}' || c == '\U{FEFF}'
  }

  /** `!s || s.trim().length === 0`: empty or whitespace only. */
  predicate Blank(s: string): (b: bool)
    ensures s == "" ==> b
    ensures |s| > 0 && !IsJsWhitespace(s[0]) ==> !b
  {
    forall i :: 0 <= i < |s| ==> IsJsWhitespace(s[i])
  }

  /** `s.trim()`: leading and trailing whitespace removed. */
  function Trim(s: string): (t: string)
    ensures |t| <= |s|
    ensures t == "" || (!IsJsWhitespace(t[0]) && !IsJsWhitespace(t[|t| - 1]))
    ensures Blank(s) <==> t == ""
    ensures exists i, j :: TrimmedAt(s, t, i, j)
  {
    var u := TrimStart(s);
    var t := TrimEnd(u);
    TrimsCompose(s, u, t);
    t
  }

  /** Dropping a blank prefix up to a visible character, and then a blank suffix back to a
      visible character, leaves the trimmed slice. */
  lemma TrimsCompose(s: string, u: string, t: string)
    requires |u| <= |s| && u == s[|s| - |u|..] && Blank(s[..|s| - |u|])
    requires u == "" || !IsJsWhitespace(u[0])
    requires |t| <= |u| && t == u[..|t|] && Blank(u[|t|..])
    requires t == "" || (t[0] == u[0] && !IsJsWhitespace(t[|t| - 1]))
    ensures |t| <= |s|
    ensures t == "" || (!IsJsWhitespace(t[0]) && !IsJsWhitespace(t[|t| - 1]))
    ensures Blank(s) <==> t == ""
    ensures TrimmedAt(s, t, |s| - |u|, |s| - |u| + |t|)
  {
    SlicesCompose(s, u, t);
    BlankIffTrimmedEmpty(s, t, |s| - |u|, |s| - |u| + |t|);
  }

  /** A slice with blank surroundings and non-blank ends is empty exactly when `s` is blank. */
  lemma BlankIffTrimmedEmpty(s: string, t: string, i: int, j: int)
    requires TrimmedAt(s, t, i, j)
    requires t == "" || !IsJsWhitespace(t[0])
    ensures Blank(s) <==> t == ""
  {
    if t == "" {
      assert s == s[..i] + s[j..];
    } else {
      assert t[0] == s[i];
    }
  }

  /** Dropping a blank prefix and then a blank suffix leaves a slice with blank surroundings. */
  lemma SlicesCompose(s: string, u: string, t: string)
    requires |u| <= |s| && u == s[|s| - |u|..] && Blank(s[..|s| - |u|])
    requires |t| <= |u| && t == u[..|t|] && Blank(u[|t|..])
    ensures TrimmedAt(s, t, |s| - |u|, |s| - |u| + |t|)
  {
    var i := |s| - |u|;
    assert s[i + |t|..] == u[|t|..];
  }

  /** `t` is `s[i..j]` and everything of `s` outside that slice is whitespace. */
  predicate TrimmedAt(s: string, t: string, i: int, j: int)
  {
    0 <= i <= j <= |s| && t == s[i..j] && Blank(s[..i]) && Blank(s[j..])
  }

  /** Leading whitespace removed; what is dropped is blank. */
  function TrimStart(s: string): (t: string)
    ensures |t| <= |s| && t == s[|s| - |t|..]
    ensures t == "" || !IsJsWhitespace(t[0])
    ensures Blank(s[..|s| - |t|])
  {
    if |s| > 0 && IsJsWhitespace(s[0]) then
      var t := TrimStart(s[1..]);
      DropFirstStep(s, |s| - |t|);
      t
    else s
  }

  /** Dropping `s[0]` first shifts every suffix by one, and a blank prefix of `s[1..]`
      stays blank with a whitespace `s[0]` in front. */
  lemma DropFirstStep(s: string, n: int)
    requires 1 <= n <= |s|
    ensures s[1..][n - 1..] == s[n..]
    ensures IsJsWhitespace(s[0]) && Blank(s[1..][..n - 1]) ==> Blank(s[..n])
  {
    if IsJsWhitespace(s[0]) && Blank(s[1..][..n - 1]) {
      forall k | 1 <= k < n
        ensures IsJsWhitespace(s[k])
      {
        assert s[k] == s[1..][..n - 1][k - 1];
      }
    }
  }

  /** Trailing whitespace removed; what is dropped is blank. */
  function TrimEnd(s: string): (t: string)
    ensures |t| <= |s| && t == s[..|t|]
    ensures t == "" || !IsJsWhitespace(t[|t| - 1])
    ensures t != "" ==> t[0] == s[0]
    ensures Blank(s[|t|..])
  {
    if |s| > 0 && IsJsWhitespace(s[|s| - 1]) then
      var t := TrimEnd(s[..|s| - 1]);
      assert s[..|s| - 1][..|t|] == s[..|t|];
      assert s[|t|..] == s[..|s| - 1][|t|..] + [s[|s| - 1]];
      t
    else s
  }

  /** `xs.join(sep)`. */
  function Join(xs: seq<string>, sep: string): string
  {
    if |xs| == 0 then ""
    else if |xs| == 1 then xs[0]
    else xs[0] + sep + Join(xs[1..], sep)
  }

  /** Joining one more element appends the separator and that element. */
  lemma {:induction false} JoinAppend(xs: seq<string>, x: string, sep: string)
    ensures Join(xs + [x], sep) == if |xs| == 0 then x else Join(xs, sep) + sep + x
  {
    if |xs| == 0 {
      assert xs + [x] == [x];
    } else if |xs| == 1 {
      assert (xs + [x])[1..] == [x];
    } else {
      assert (xs + [x])[1..] == xs[1..] + [x];
      JoinAppend(xs[1..], x, sep);
    }
  }

  /** The character of a decimal digit. */
  function DigitChar(d: nat): (c: char)
    requires d < 10
    ensures '0' <= c <= '9'
    ensures DigitValue(c) == d
  {
    ('0' as int + d) as char
  }

  /** The value of a decimal digit character, 0 for any other character. */
  function DigitValue(c: char): nat
  {
    if '0' <= c <= '9' then c as int - '0' as int else 0
  }

  /** The number a string of decimal digits spells, read from the left. */
  function DecimalValue(s: string): nat
  {
    if |s| == 0 then 0 else DecimalValue(s[..|s| - 1]) * 10 + DigitValue(s[|s| - 1])
  }

  /** The decimal rendering of a natural number, as `${n}` produces it. */
  function NatToString(n: nat): (s: string)
    ensures |s| >= 1
    ensures forall i :: 0 <= i < |s| ==> '0' <= s[i] <= '9'
    ensures |s| > 1 ==> s[0] != '0'
    ensures DecimalValue(s) == n
  {
    if n < 10 then
      [DigitChar(n)]
    else
      var s := NatToString(n / 10) + [DigitChar(n % 10)];
      assert s[..|s| - 1] == NatToString(n / 10);
      s
  }
}
